=== FILE: README.md ===
# Audio transcription scripts, modelled in Dafny

This project models the data-handling core of the `project_a` audio-transcription scripts:

- **Chunking** — `split_audio` of `utils.py`. Decoded audio is a sequence with one element
  per millisecond, which is pydub's unit for `len()` and slicing.
- **AudioExport** and **Base64** — `export_chunk_to_base64` of `utils.py`. The codec
  behind `chunk.export` is a function parameter. The returned text is the base64
  encoding of section 4 of RFC 4648, paired with a strict decoder as its inverse.
- **AudioChat** — the chat-completion transcription of `02_4o_audio.py`:
  - the file extension;
  - one request per 30-second chunk;
  - the completions collected in chunk order;
  - the transcript file, with one `file.write` of an `Audio chunk n: …` record per
    completion.
- **BatchJob** — the batch transcription of `04_base_speech.py`:
  - the region read from the service URL;
  - the submission id cut from the `self` link;
  - the status-polling loop;
  - the selection, download and reading of the transcription files.
- **Paths**, **Strings**, **Decimal**, **JsonValues** — the Python library behaviour
  these scripts lean on, each in its own module:
  - POSIX `os.path.basename`, `splitext` and `join`;
  - `str.split` at leftmost occurrences;
  - `str()` of an `int`;
  - JSON values with Python truthiness and `dict.get`.

Python exceptions are values (`Errors.Raised`): IndexError, KeyError, TypeError,
AttributeError and ValueError. Every modelled operation returns either its result or the
exception the Python code raises at that point. The function parameters (the chat service,
the codec, `str()` of a completion) never raise; see "## Left out".

The outside world is represented as follows:

- The chat service, the codec and `str()` of a completion are function parameters.
- The speech service's responses are inputs: the submission response, the sequence of
  status responses, the file list, and the documents behind the content URLs.
- The effects of a run (status and list requests, downloads, text files written,
  five-second sleeps) are a list of events. A run ends `Done`, `Crashed(e)`, or
  `StillPolling` when the given status responses run out while the loop still asks.

## Model

| member | source | states |
|---|---|---|
| Chunking.SplitAudio | project_a/scripts/utils.py:31-49 | Audio no longer than the chunk length comes back as one chunk, itself. Longer audio comes back as ceil(duration / chunk length) windows `audio[i:i+L]`, one for each start offset `i` of `range(0, len(audio), L)`. Played in order, the chunks give the audio back. Frame rate and channels are kept. A zero chunk length raises ValueError exactly when the audio is not empty. A negative one gives no chunks. |
| Chunking.ChunkDurations | project_a/scripts/utils.py:35-46 | Long audio gives at least two chunks. Every chunk is non-empty and at most one chunk length. All but the last are exactly one chunk length, and the last holds the remainder. |
| Chunking.SixtyFiveSecondsInThirtySecondChunks | project_a/scripts/utils.py:38-46 | 65 s of audio in the scripts' 30 s chunks gives three chunks: 30 s, 30 s and 5 s. |
| Chunking.WindowsFromCover | project_a/scripts/utils.py:38-46 | From any loop position on, the windows still to come cover the audio from that offset to the end, with no gap or overlap. |
| Base64.DecodeEncode | project_a/scripts/utils.py:85 | Every byte string decodes back from its base64 text. |
| Base64.EncodeDecode | project_a/scripts/utils.py:85 | Every text the strict decoder accepts is the encoding of what it decodes to, so the encoding is the only text that decodes to given bytes. |
| Base64.EncodedLength | project_a/scripts/utils.py:85 | The base64 text of n bytes is 4·ceil(n/3) characters long. |
| Base64.EncodedChars | project_a/scripts/utils.py:85 | All characters of the text are from the alphabet except the padding at the end, which is `=` repeated 0, 1 or 2 times as n mod 3 requires. |
| AudioExport.TempFileParams | project_a/scripts/utils.py:62-74 | The temporary-file export gets three settings. The bitrate is the frame rate in thousands (floor division) followed by `k`. `-ar` is followed by the frame rate and `-ac` by the channel count. Every number is a canonical decimal numeral, as `str()` writes it: digits only, with no leading zero except in `0`. |
| AudioExport.ExportChunkToBase64 | project_a/scripts/utils.py:51-88 | A temporary file is written exactly when the path is truthy (not None, not empty). It goes to that path with the derived settings. The returned text decodes to the bytes of the plain in-memory export and has the base64 shape. |
| AudioExport.EncodedIgnoresTempPath | project_a/scripts/utils.py:60-88 | The returned text is the same whatever temporary path is given. It is the base64 of the in-memory export. |
| Paths.SplitExt | project_a/scripts/02_4o_audio.py:28 | `os.path.splitext` loses nothing: root plus extension is the path. The extension is non-empty exactly when a dot in the file name follows a non-dot character. A non-empty extension starts with its only dot and holds no `/`. |
| Paths.Extension | project_a/scripts/02_4o_audio.py:28 | `splitext(p)[1].split('.')[1]` raises IndexError exactly when the file name has no extension. Otherwise the result holds no dot and no `/`, and the path ends with a dot followed by it. |
| Paths.ExtensionOfPath | project_a/scripts/04_base_speech.py:26 | A path `dir/stem.ext` whose stem does not start with a dot has extension `ext`. |
| Paths.ExtensionMissing | project_a/scripts/04_base_speech.py:26 | `dir/name` and `dir/.name`, with no dot in `name`, raise IndexError: a leading dot does not start an extension. |
| Paths.LastSplitPartIsBasename | project_a/scripts/04_base_speech.py:94 | `s.split('/')[-1]` is `os.path.basename(s)`: the `/`-free text after the last `/`. |
| Paths.BasenameOfJoin | project_a/scripts/02_4o_audio.py:115 | The file name is read back from a path built as `dir/name`. |
| Paths.JoinPathInjective | project_a/scripts/04_base_speech.py:124 | Joining one folder with two relative names gives the same path only for the same name. |
| Strings.SplitJoin | project_a/scripts/04_base_speech.py:38 | `str.split` loses nothing: the parts joined with the separator give the text back. |
| Strings.SplitPartsLackSeparator | project_a/scripts/04_base_speech.py:38 | No part of a split holds the separator. |
| Strings.SplitSingle | project_a/scripts/04_base_speech.py:38 | A text splits into more than one part exactly when the separator occurs in it. |
| Strings.FindLeftmost | project_a/scripts/04_base_speech.py:38 | The search `split` cuts at finds the leftmost occurrence, and finds nothing exactly when there is none. |
| Decimal.ToNatFromNat | project_a/scripts/02_4o_audio.py:120 | A number printed in decimal reads back as the same number. |
| Decimal.FromNatToNat | project_a/scripts/utils.py:63-73 | A canonical decimal numeral is exactly what `str()` prints for its value. |
| Decimal.FromNatDelimited | project_a/scripts/04_base_speech.py:124 | A numeral followed by a non-digit can be cut apart again: equal texts of that shape have equal numbers and equal tails. |
| AudioChat.ChunkRequest | project_a/scripts/02_4o_audio.py:17-100 | The audio data of a chunk's request decodes to the chunk's in-memory export in the file's format. The request names that format. It goes to the `gpt-4o-audio-preview` deployment and asks for text only, at temperature 0 with at most 4096 tokens. The system text is the documentation instruction and the user text is the transcription prompt. |
| AudioChat.CollectCompletions | project_a/scripts/02_4o_audio.py:44-102 | There is one completion per chunk, in chunk order. Completion k answers the request for chunk k. |
| AudioChat.LineBody | project_a/scripts/02_4o_audio.py:118-124 | A first choice that stopped normally contributes its content, and a missing content raises TypeError. Another finish reason gives `Skipped,<reason>`. A completion without choices gives `Skipped, <completion>`. |
| AudioChat.ParseRenderLine | project_a/scripts/02_4o_audio.py:120-124 | The text of every `file.write` to the transcript reads back as its chunk number and body, whatever the body holds. |
| AudioChat.RenderParseLine | project_a/scripts/02_4o_audio.py:120-124 | Every text that reads as a record is exactly the `file.write` text of the number and body it reads as. Only canonical numbers are read, so `Audio chunk 01: ` is refused and each record has one text. |
| AudioChat.WriteLines | project_a/scripts/02_4o_audio.py:116-124 | The records are written in order and numbered consecutively, one write each. The first body that raises ends the file, and the earlier writes are kept. The file is complete exactly when no body raises. |
| AudioChat.WriteTranscript | project_a/scripts/02_4o_audio.py:116-124 | The k-th write to the file reads back as chunk number k, written the way `str()` writes it, and the body for completion k. The transcript is complete exactly when every completion yields a body. |
| AudioChat.TranscribeInChunks | project_a/scripts/02_4o_audio.py:28-124 | A file without an extension raises IndexError before anything is sent. Otherwise the chunks cover the audio, there is at most one write per chunk and exactly one when nothing raised, and the transcript goes to `4o_audio_transcript_<file name>.txt` in the output folder. Write k is the record of the completion for chunk k. The transcript is complete exactly when the completion for every chunk yields a body. |
| AudioChat.ContentFilterScenario | project_a/scripts/02_4o_audio.py:116-124 | A content-filtered middle chunk leaves a skip notice between the two transcribed records. |
| BatchJob.Region | project_a/scripts/04_base_speech.py:38 | The region is the text after the first `//`, up to the next `.`, `//` or the end. It raises IndexError exactly when the URL has no `//`. |
| BatchJob.RegionOfHost | project_a/scripts/04_base_speech.py:38 | For `scheme//host.rest`, with no `/` in scheme or host and no `.` in host, the region is `host`. |
| BatchJob.RegionUnique | project_a/scripts/04_base_speech.py:38 | The region is determined by where it starts. |
| BatchJob.ConfiguredRegion | project_a/scripts/04_base_speech.py:33-38 | The configured service URL gives region `australiaeast`. |
| BatchJob.SubmissionId | project_a/scripts/04_base_speech.py:92-94 | There is no id unless the response and its `self` link are truthy. A truthy link that is not a string raises AttributeError. Otherwise the id is the text after the last `/` of the link. |
| BatchJob.PollingNeedsIdAfterSlash | project_a/scripts/04_base_speech.py:92-98 | Polling starts exactly when the `self` link is a non-empty string that does not end with `/`. |
| BatchJob.StepByStatus | project_a/scripts/04_base_speech.py:107-154 | The turn's action depends on the status alone: `Succeeded` lists the files, `NotStarted` or `Running` waits, and `Failed` ends the loop. Any other status, or none, asks again. |
| BatchJob.StepIsElifChain | project_a/scripts/04_base_speech.py:107-154 | The action agrees with the script's `if`/`elif` chain. Each test requires a truthy response, and in the waiting test `and` binds tighter than `or`. |
| BatchJob.FirstTerminal | project_a/scripts/04_base_speech.py:103-154 | The loop ends at the first response that succeeds or fails, and at no earlier one. |
| BatchJob.Poll | project_a/scripts/04_base_speech.py:98-154 | The loop stops exactly when some response ends it. It fetches the file list exactly once when it ends on success, and never otherwise. Its outcome then is that of processing the list. |
| BatchJob.PollFileEffects | project_a/scripts/04_base_speech.py:103-154 | The loop touches files only by handling the fetched list. On success its downloads and writes are exactly those of the handling, and otherwise there are none. |
| BatchJob.PollOutcome | project_a/scripts/04_base_speech.py:103-154 | A loop that ends on `Succeeded` has the outcome of handling the fetched list. One that ends on `Failed` finishes without an exception. |
| BatchJob.PollSleepLength | project_a/scripts/04_base_speech.py:148-151 | Every sleep of the loop lasts five seconds. |
| BatchJob.PollStatusCount | project_a/scripts/04_base_speech.py:103-105 | There is one status request per response read, up to and including the one that ends the loop. |
| BatchJob.PollWaits | project_a/scripts/04_base_speech.py:148-151 | The loop sleeps once for each `NotStarted` or `Running` answer it reads. |
| BatchJob.PollFailed | project_a/scripts/04_base_speech.py:152-154 | A job reported as failed ends the loop with nothing downloaded. |
| BatchJob.PollStepCount | project_a/scripts/04_base_speech.py:148-154 | A turn that does not end the loop adds one status request, plus a sleep when asked to wait, and goes on as the rest. |
| BatchJob.FirstPhrase | project_a/scripts/04_base_speech.py:134 | `phrases[0]` of a list is its first element, and raises IndexError on an empty list. Of a string it is the first character, with IndexError on an empty string. A dict raises KeyError, since its keys are never 0. None, a number or a boolean raises TypeError. |
| BatchJob.DisplayText | project_a/scripts/04_base_speech.py:133-139 | A document without `combinedRecognizedPhrases` yields ''. An empty phrase list raises IndexError, and a document that is not an object raises AttributeError. In a non-empty list, a first phrase that is not an object raises AttributeError. A phrase without `display` yields '', and a string `display` is the text. Any other `display` raises TypeError when written. A present phrase value that is not a list raises IndexError when it is an empty string, AttributeError when it is a non-empty string, KeyError when it is a dict, and TypeError otherwise. Whenever a text is obtained, the document is an object and any phrase list it has is non-empty with an object first. |
| BatchJob.FileRun | project_a/scripts/04_base_speech.py:119-144 | An entry is handled without an exception exactly when it is a dict with dict links and, for a transcription, its document yields a text. When it is handled, a transcription's operations are exactly two. First its `links.contentUrl` is downloaded to the JSON path of its position. Then the display text of that document is written to the `.txt` path of the same position. A report or any other kind does nothing. When an entry raises, the download has happened exactly when the entry is a transcription whose links could be read, so only its document read failed. Which exception is raised is stated by FileRunCrashKind. |
| BatchJob.ProcessFiles | project_a/scripts/04_base_speech.py:119-144 | The list is handled completely exactly when every entry is. The downloads are then the transcription entries' paths in list order. |
| BatchJob.FileRunCrashKind | project_a/scripts/04_base_speech.py:120-139 | An entry that is not a dict, or whose links are not a dict, raises AttributeError. A transcription whose document cannot be read raises that read's exception. |
| BatchJob.ProcessFilesCrash | project_a/scripts/04_base_speech.py:119-144 | When entry i is the first that raises, the loop ends with that exception. The operations are those of the entries before it, in order, followed by what entry i did before raising. |
| BatchJob.ProcessFilesEvents | project_a/scripts/04_base_speech.py:119-144 | A list handled completely leaves exactly the operations of its entries, in list order, each entry numbered by its position. |
| BatchJob.ListedFiles | project_a/scripts/04_base_speech.py:116-119 | A falsy response or a falsy `values` gives nothing to do, and a list is iterated. Iterating a string or a dict yields strings, whose missing `.get` raises AttributeError. A number or boolean is not iterable and raises TypeError. |
| BatchJob.ListingRun | project_a/scripts/04_base_speech.py:112-144 | A list that cannot be read ends the run with its exception before any entry is touched. A list that can be read is handled entry by entry exactly as the loop does, so the result of the loop, crash included, is the result of the run. Only downloads and text writes happen, and the run never stays polling. |
| BatchJob.ListingRunFiles | project_a/scripts/04_base_speech.py:112-144 | The fetched list is handled without an exception exactly when it can be read and every entry gets through. Its operations are then exactly those its entries call for, in list order. |
| BatchJob.TranscriptionPathsExact | project_a/scripts/04_base_speech.py:124-129 | The path for position g is called for exactly when entry g is a transcription. |
| BatchJob.DownloadsAreTranscriptions | project_a/scripts/04_base_speech.py:119-144 | When no entry raises, the path for position g is downloaded exactly when entry g is a transcription. |
| BatchJob.JsonPathInjective | project_a/scripts/04_base_speech.py:124 | Entries at different positions are saved under different names. |
| BatchJob.ModelsListPath | project_a/scripts/04_base_speech.py:39 | The model list is saved as `speech_to_text_models_australiaeast.json` in the output folder. |
| BatchJob.BaseSpeechRun | project_a/scripts/04_base_speech.py:26-154 | A file without an extension raises IndexError. A `self` link that is not a string raises AttributeError. Without a non-empty id nothing is polled. Otherwise there is one status request per response read, and one five-second sleep per `NotStarted` or `Running` answer read. Every sleep lasts five seconds. The run is still polling exactly when no response ended the loop. A run that ends on `Succeeded` has the outcome of handling the list, and one that ends on `Failed` finishes without an exception. The file list is fetched once on success, and the downloads and writes are then exactly those of handling it. |
| BatchJob.SucceededRunFiles | project_a/scripts/04_base_speech.py:98-146 | A run that polls, reads `Succeeded` and handles the list without an exception downloads each transcription entry's content URL and writes its text, and does nothing else to files. The order is the list order, and the names carry each entry's position and the audio file's name. |

## Left out

- I/O: reading the audio file, writing files and the models list, the blob upload, the
  SAS URI and the REST and SDK calls. Their results are inputs or function parameters,
  and their effects are events.
- Timing: `time.time()`, printing, and the wall-clock length of `time.sleep(5)`. A sleep
  is an event carrying its seconds.
- Floats: `chunk_length` is an integer in the model, and the scripts only pass 30.
  JSON numbers are not distinguished by value, since only their truthiness matters here.
- Download failures: `download_file_from_web` always saves the document its URL leads to.
  The document is a function of the URL value.
- AudioChat.CollectCompletions: the chat service is a total function and never raises.
  In the script, an exception from `client.chat.completions.create` at any chunk stops
  the script before the transcript is opened for writing, so no transcript file is written
  at all. The model does not represent that path.
- AudioExport.ExportChunkToBase64: the codec behind `chunk.export` is a total function
  and never raises. An export error in the script propagates out of the chunk loop and,
  as above, stops the script before any transcript is written. The model does not
  represent that path.
- Paths: only POSIX `os.path` behaviour (`/` separators) is modelled, not Windows.
- 01_whisper.py is not part of this model.
- BatchJob.DisplayText: when the write of a non-string display value raises TypeError,
  the `.txt` file has already been opened and created empty. The model records no write
  event for it.
- Strings.Split: the contract keeps only `|parts| >= 1`. The parts themselves are
  described by SplitJoin, SplitPartsLackSeparator, SplitSingle and FirstPart.
- Strings.Split: Python's ValueError for an empty separator is not modelled. Every call
  passes a non-empty literal, and the precondition states it.
- BatchJob.Poll: the contract states the outcome and the file-list count. The status
  count, the sleeps and their length, the outcome by final status, the failed case and
  the file operations are the lemmas PollStatusCount, PollWaits, PollSleepLength,
  PollOutcome, PollFailed and PollFileEffects. The id carried by each
  status request is not stated.
- AudioChat.WriteTranscript: the model records the text of each `file.write`, not the
  lines of the resulting file. A body that contains a newline spreads one record over
  several lines of the file.
- BatchJob.BaseSpeechRun: the models list of part 1, the upload of part 2 and the
  submission request are not modelled. Only their use of the region and the file name
  is.

=== FILE: audio_chat.dfy ===
/** The chunked chat-completion transcription of 02_4o_audio.py: one completion per audio
    chunk, in chunk order, then one `file.write` of an "Audio chunk n: " record per completion. The chat service is a
    parameter (a function from request to completion), and so is the text `str()` gives a
    completion. */
module AudioChat {
  import opened Wrappers
  import opened Errors
  import opened Chunking
  import Base64
  import Decimal
  import Paths
  import AudioExport

  /** One choice of a completion: why generation stopped, and the message text, which the
      service may leave out (`None`). */
  datatype Choice = Choice(finishReason: string, content: Option<string>)

  /** A chat completion: its list of choices, possibly empty. */
  datatype Completion = Completion(choices: seq<Choice>)

  /** The fields of the chat request the script sends for one chunk. */
  datatype ChatRequest = ChatRequest(
    model: string,
    modalities: seq<string>,
    temperature: int,
    maxTokens: nat,
    systemText: string,
    promptText: string,
    audioData: string,
    audioFormat: string)

  const DeploymentId: string := "gpt-4o-audio-preview"
  const ChunkSeconds: int := 30
  const MaxTokens: nat := 4096

  const SystemMessage: string :=
    "You are generating a text transcript for documentation. \n"
    + "    You will be given audio file, listen to it carefully ignoring background sounds.\n"
    + "    Do not guess words that you cannot hear clearly. Say [inaudible] for words that you cannot hear clearly.\n"
    + "    Do not say transcription or anything else at start or end of the transcription.\n"
    + "    Do not say I can't assist with transcribing audio.\n"
    + "    "

  const Prompt: string := "Transcribe this audio file into text."

  /** The request for one chunk: the chunk exported without a temporary file, base64 encoded,
      and labelled with the file's extension as its format. */
  function ChunkRequest<T>(codec: AudioExport.Codec<T>, chunk: AudioSegment<T>, ext: string): (q: ChatRequest)
    ensures Base64.Decode(q.audioData) == Success(AudioExport.BufferBytes(codec, chunk, ext))
    ensures q.audioFormat == ext
    ensures q.model == DeploymentId && q.modalities == ["text"]
    ensures q.temperature == 0 && q.maxTokens == MaxTokens
    ensures q.systemText == SystemMessage && q.promptText == Prompt
  {
    var data := AudioExport.ExportChunkToBase64(codec, chunk, ext, None).encoded;
    ChatRequest(DeploymentId, ["text"], 0, MaxTokens, SystemMessage, Prompt, data, ext)
  }

  /** The loop over `enumerate(audio_chunks)`: one completion appended per chunk, in order. */
  function CollectCompletions<T>(chat: ChatRequest -> Completion, codec: AudioExport.Codec<T>,
                                 chunks: seq<AudioSegment<T>>, ext: string): (rs: seq<Completion>)
    ensures |rs| == |chunks|
    ensures forall k :: 0 <= k < |chunks| ==> rs[k] == chat(ChunkRequest(codec, chunks[k], ext))
    decreases |chunks|
  {
    if |chunks| == 0 then []
    else [chat(ChunkRequest(codec, chunks[0], ext))] + CollectCompletions(chat, codec, chunks[1..], ext)
  }

  /** The text after "Audio chunk n: " for one completion. A first choice that stopped
      normally contributes its content, and a missing content makes `': ' + content` raise
      TypeError; any other finish reason gives "Skipped," and the reason with no space; a
      completion without choices gives "Skipped, " and the completion's printed form. */
  function LineBody(c: Completion, show: Completion -> string): (r: Result<string, Raised>)
    ensures |c.choices| > 0 && c.choices[0].finishReason == "stop" && c.choices[0].content.Some? ==>
              r == Success(c.choices[0].content.value)
    ensures |c.choices| > 0 && c.choices[0].finishReason == "stop" && c.choices[0].content.None? ==>
              r == Failure(TypeError)
    ensures |c.choices| > 0 && c.choices[0].finishReason != "stop" ==>
              r == Success("Skipped," + c.choices[0].finishReason)
    ensures |c.choices| == 0 ==> r == Success("Skipped, " + show(c))
    ensures r.Failure? ==> r.error == TypeError
  {
    if |c.choices| > 0 && c.choices[0].finishReason == "stop" then
      match c.choices[0].content
      case None => Failure(TypeError)
      case Some(text) => Success(text)
    else if |c.choices| > 0 && c.choices[0].finishReason != "stop" then
      Success("Skipped," + c.choices[0].finishReason)
    else
      Success("Skipped, " + show(c))
  }

  const LinePrefix: string := "Audio chunk "

  /** The text of one `file.write` to the transcript, for the 1-based chunk number `n`:
      a line of the file when the body holds no newline. */
  function RenderLine(n: nat, body: string): string {
    LinePrefix + Decimal.FromNat(n) + ": " + body + "\n"
  }

  /** The number of digits that start `s`. */
  function LeadingDigits(s: string): (k: nat)
    ensures k <= |s| && Decimal.AllDigits(s[..k])
    ensures k < |s| ==> !Decimal.IsDigit(s[k])
    decreases |s|
  {
    if |s| == 0 || !Decimal.IsDigit(s[0]) then 0
    else
      var k := 1 + LeadingDigits(s[1..]);
      assert forall i :: 1 <= i < k ==> s[..k][i] == s[1..][..k - 1][i - 1];
      k
  }

  /** The digits in front of a text that starts with a non-digit are counted exactly. */
  lemma {:induction false} LeadingDigitsStop(digits: string, tail: string)
    requires Decimal.AllDigits(digits) && |tail| > 0 && !Decimal.IsDigit(tail[0])
    ensures LeadingDigits(digits + tail) == |digits|
    decreases |digits|
  {
    if |digits| == 0 {
      assert digits + tail == tail;
    } else {
      assert (digits + tail)[1..] == digits[1..] + tail;
      LeadingDigitsStop(digits[1..], tail);
    }
  }

  /** Reads the text of one write back into its chunk number and body. */
  function ParseLine(line: string): Option<(nat, string)> {
    if |line| < |LinePrefix| || line[..|LinePrefix|] != LinePrefix then None
    else
      var rest := line[|LinePrefix|..];
      var k := LeadingDigits(rest);
      if !Decimal.IsNumeral(rest[..k]) || |rest| < k + 3 || rest[k..k + 2] != ": " || rest[|rest| - 1] != '\n' then None
      else Some((Decimal.ToNat(rest[..k]), rest[k + 2..|rest| - 1]))
  }

  /** Every rendered record reads back as its chunk number and body: it starts with
      "Audio chunk n: " and ends with a newline, and no body can blur the number. */
  lemma ParseRenderLine(n: nat, body: string)
    ensures ParseLine(RenderLine(n, body)) == Some((n, body))
  {
    var digits := Decimal.FromNat(n);
    var rest := digits + (": " + body + "\n");
    var line := RenderLine(n, body);
    assert line == LinePrefix + rest;
    assert line[..|LinePrefix|] == LinePrefix;
    assert line[|LinePrefix|..] == rest;
    ParseRest(digits, body);
    Decimal.ToNatFromNat(n);
  }

  /** Conversely, every text that reads as a record is the rendering of what it reads as:
      the number must be written as `str()` writes it, so "Audio chunk 01: " is refused. */
  lemma RenderParseLine(line: string)
    requires ParseLine(line).Some?
    ensures RenderLine(ParseLine(line).value.0, ParseLine(line).value.1) == line
  {
    var rest := line[|LinePrefix|..];
    var k := LeadingDigits(rest);
    var digits, body := rest[..k], rest[k + 2..|rest| - 1];
    Decimal.FromNatToNat(digits);
    assert rest[k..] == ": " + body + "\n";
    assert rest == digits + rest[k..];
    assert line == LinePrefix + rest;
  }

  /** What follows the prefix of a record splits back into the number and the body. */
  lemma ParseRest(digits: string, body: string)
    requires Decimal.AllDigits(digits) && |digits| > 0
    ensures var rest := digits + (": " + body + "\n");
            && LeadingDigits(rest) == |digits|
            && |rest| >= |digits| + 3 && rest[|rest| - 1] == '\n'
            && rest[..|digits|] == digits
            && rest[|digits|..|digits| + 2] == ": "
            && rest[|digits| + 2..|rest| - 1] == body
  {
    var tail := ": " + body + "\n";
    var rest := digits + tail;
    LeadingDigitsStop(digits, tail);
    assert rest[|digits|..] == tail;
    assert tail[..2] == ": " && tail[2..|tail| - 1] == body;
  }

  /** The transcript file: the texts passed to `file.write`, in order, and the exception
      that stopped the writing. The file holds their concatenation. */
  datatype Transcript = Transcript(writes: seq<string>, error: Option<Raised>)

  /** The writes for `results`, numbered from `first`; the first body that raises ends the
      file there, the records before it already written. */
  function WriteLines(results: seq<Completion>, show: Completion -> string, first: nat): (t: Transcript)
    ensures |t.writes| <= |results|
    ensures forall k :: 0 <= k < |t.writes| ==>
              LineBody(results[k], show).Success? && t.writes[k] == RenderLine(first + k, LineBody(results[k], show).value)
    ensures t.error.None? <==> |t.writes| == |results|
    ensures t.error.Some? ==> t.error == Some(TypeError) && LineBody(results[|t.writes|], show).Failure?
    decreases |results|
  {
    if |results| == 0 then Transcript([], None)
    else
      match LineBody(results[0], show)
      case Failure(e) => Transcript([], Some(e))
      case Success(body) =>
        var rest := WriteLines(results[1..], show, first + 1);
        Transcript([RenderLine(first, body)] + rest.writes, rest.error)
  }

  /** The `with open(...)` block: write k (1-based) is the record of completion k. */
  function WriteTranscript(results: seq<Completion>, show: Completion -> string): (t: Transcript)
    ensures |t.writes| <= |results|
    ensures forall k :: 0 <= k < |t.writes| ==>
              LineBody(results[k], show).Success? &&
              ParseLine(t.writes[k]) == Some((k + 1, LineBody(results[k], show).value))
    ensures t.error.None? <==> forall k :: 0 <= k < |results| ==> LineBody(results[k], show).Success?
  {
    var t := WriteLines(results, show, 1);
    forall k | 0 <= k < |t.writes|
      ensures ParseLine(t.writes[k]) == Some((k + 1, LineBody(results[k], show).value))
    {
      ParseRenderLine(k + 1, LineBody(results[k], show).value);
    }
    t
  }

  /** The outcome of the whole script: where the transcript goes, and what it holds. */
  datatype ScriptRun = ScriptRun(outputPath: string, transcript: Transcript)

  /** The script from the extension of the selected file to the transcript, given the
      decoded audio of that file. The extension raises IndexError before anything is sent;
      otherwise the audio is cut into 30-second chunks, each chunk is transcribed, and the
      results are written to "4o_audio_transcript_<file name>.txt" in the output folder. */
  function TranscribeInChunks<T>(audioPath: string, audio: AudioSegment<T>, codec: AudioExport.Codec<T>,
                                 chat: ChatRequest -> Completion, show: Completion -> string,
                                 outputPath: string): (r: Result<ScriptRun, Raised>)
    ensures r.Failure? <==> !Paths.HasExtension(Paths.Basename(audioPath))
    ensures r.Failure? ==> r.error == IndexError
    ensures r.Success? ==>
              var chunks := SplitAudio(audio, ChunkSeconds).value;
              && Flatten(chunks) == audio.frames
              && |r.value.transcript.writes| <= |chunks|
              && (r.value.transcript.error.None? ==> |r.value.transcript.writes| == |chunks|)
              && r.value.outputPath == Paths.JoinPath(outputPath, "4o_audio_transcript_" + Paths.Basename(audioPath) + ".txt")
    ensures r.Success? ==>
              var chunks, ext := SplitAudio(audio, ChunkSeconds).value, Paths.Extension(audioPath).value;
              && (forall k :: 0 <= k < |r.value.transcript.writes| ==>
                    && LineBody(chat(ChunkRequest(codec, chunks[k], ext)), show).Success?
                    && ParseLine(r.value.transcript.writes[k])
                       == Some((k + 1, LineBody(chat(ChunkRequest(codec, chunks[k], ext)), show).value)))
              && (r.value.transcript.error.None? <==>
                    forall k :: 0 <= k < |chunks| ==> LineBody(chat(ChunkRequest(codec, chunks[k], ext)), show).Success?)
  {
    match Paths.Extension(audioPath)
    case Failure(e) => Failure(e)
    case Success(ext) =>
      var chunks := SplitAudio(audio, ChunkSeconds).value;
      var results := CollectCompletions(chat, codec, chunks, ext);
      var name := Paths.JoinPath(outputPath, "4o_audio_transcript_" + Paths.Basename(audioPath) + ".txt");
      Success(ScriptRun(name, WriteTranscript(results, show)))
  }

  /** A run where the second of three chunks is refused by the content filter: the three
      writes are the first content, the skip notice with the reason, and the third content. */
  lemma ContentFilterScenario(a: string, b: string, show: Completion -> string)
    ensures var results := [Completion([Choice("stop", Some(a))]),
                            Completion([Choice("content_filter", None)]),
                            Completion([Choice("stop", Some(b))])];
            WriteTranscript(results, show).writes
              == [RenderLine(1, a), RenderLine(2, "Skipped,content_filter"), RenderLine(3, b)]
  {
    var results := [Completion([Choice("stop", Some(a))]),
                    Completion([Choice("content_filter", None)]),
                    Completion([Choice("stop", Some(b))])];
    var t := WriteLines(results, show, 1);
    assert WriteTranscript(results, show) == t;
    assert LineBody(results[0], show) == Success(a);
    assert "content_filter" != "stop" by {
      assert "content_filter"[0] != "stop"[0];
    }
    SkipNoticeText();
    assert LineBody(results[1], show) == Success("Skipped,content_filter");
    assert LineBody(results[2], show) == Success(b);
    assert |t.writes| == 3;
  }

  lemma SkipNoticeText()
    ensures "Skipped," + "content_filter" == "Skipped,content_filter"
  {
  }
}

=== FILE: base64.dfy ===
/** The base64 encoding of section 4 of RFC 4648, as `base64.b64encode` applies it, with a
    strict decoder as its inverse. */
module Base64 {
  import opened Wrappers

  type Byte = b: int | 0 <= b < 256
  type Sextet = v: int | 0 <= v < 64

  /** The 64 characters of the alphabet of section 4 of RFC 4648. */
  predicate IsAlphabetChar(c: char) {
    ('A' <= c <= 'Z') || ('a' <= c <= 'z') || ('0' <= c <= '9') || c == '+' || c == '/'
  }

  const PadChar: char := '='

  function CharOf(v: Sextet): (c: char)
    ensures IsAlphabetChar(c)
  {
    if v < 26 then (('A' as int) + v) as char
    else if v < 52 then (('a' as int) + (v - 26)) as char
    else if v < 62 then (('0' as int) + (v - 52)) as char
    else if v == 62 then '+'
    else '/'
  }

  /** The inverse of `CharOf` on the alphabet (`CharOfValueOf`, `ValueOfCharOf`). */
  function ValueOf(c: char): Sextet
    requires IsAlphabetChar(c)
  {
    if 'A' <= c <= 'Z' then (c as int) - ('A' as int)
    else if 'a' <= c <= 'z' then (c as int) - ('a' as int) + 26
    else if '0' <= c <= '9' then (c as int) - ('0' as int) + 52
    else if c == '+' then 62
    else 63
  }

  lemma ValueOfCharOf(v: Sextet)
    ensures ValueOf(CharOf(v)) == v
  {
  }

  lemma CharOfValueOf(c: char)
    requires IsAlphabetChar(c)
    ensures CharOf(ValueOf(c)) == c
  {
  }

  /** Three bytes (24 bits) become four sextets, most significant bits first. */
  function EncodeTriple(b0: Byte, b1: Byte, b2: Byte): string {
    [CharOf(b0 / 4), CharOf(b0 % 4 * 16 + b1 / 16), CharOf(b1 % 16 * 4 + b2 / 64), CharOf(b2 % 64)]
  }

  /** A final single byte is filled with zero bits to two sextets, then "==". */
  function EncodeOne(b0: Byte): string {
    [CharOf(b0 / 4), CharOf(b0 % 4 * 16), PadChar, PadChar]
  }

  /** Two final bytes are filled with zero bits to three sextets, then "=". */
  function EncodeTwo(b0: Byte, b1: Byte): string {
    [CharOf(b0 / 4), CharOf(b0 % 4 * 16 + b1 / 16), CharOf(b1 % 16 * 4), PadChar]
  }

  /** The number of '=' characters that end the encoding of `n` bytes. */
  function PadCount(n: nat): nat {
    if n % 3 == 0 then 0 else 3 - n % 3
  }

  /** `base64.b64encode(data).decode('utf-8')`: each group of three bytes becomes four
      characters; a final group of one or two bytes is completed with '='. */
  function Encode(data: seq<Byte>): string
    decreases |data|
  {
    if |data| == 0 then ""
    else if |data| == 1 then EncodeOne(data[0])
    else if |data| == 2 then EncodeTwo(data[0], data[1])
    else EncodeTriple(data[0], data[1], data[2]) + Encode(data[3..])
  }

  /** The encoding of `n` bytes has 4 * ceil(n / 3) characters, all from the alphabet
      except the final padding, which is one '=' when n % 3 == 2, two when n % 3 == 1,
      and none when three divides n. */
  lemma EncodedShape(data: seq<Byte>)
    ensures |Encode(data)| == 4 * ((|data| + 2) / 3)
    ensures PadCount(|data|) <= 2
    ensures forall i :: 0 <= i < |Encode(data)| - PadCount(|data|) ==> IsAlphabetChar(Encode(data)[i])
    ensures forall i :: |Encode(data)| - PadCount(|data|) <= i < |Encode(data)| ==> Encode(data)[i] == PadChar
  {
    EncodedLength(data);
    EncodedChars(data);
  }

  lemma {:induction false} EncodedLength(data: seq<Byte>)
    ensures |Encode(data)| == 4 * ((|data| + 2) / 3)
    decreases |data|
  {
    if |data| >= 3 {
      EncodedLength(data[3..]);
      assert (|data| + 2) / 3 == (|data| - 3 + 2) / 3 + 1;
    }
  }

  /** `s` is alphabet characters followed by `pad` padding characters. */
  predicate PaddedText(s: string, pad: nat) {
    && pad <= |s|
    && (forall i :: 0 <= i < |s| - pad ==> IsAlphabetChar(s[i]))
    && (forall i :: |s| - pad <= i < |s| ==> s[i] == PadChar)
  }

  lemma {:induction false} EncodedChars(data: seq<Byte>)
    ensures PadCount(|data|) <= 2
    ensures PaddedText(Encode(data), PadCount(|data|))
    decreases |data|
  {
    if |data| >= 3 {
      EncodedChars(data[3..]);
      assert PadCount(|data|) == PadCount(|data| - 3);
      PrependGroup(EncodeTriple(data[0], data[1], data[2]), Encode(data[3..]), PadCount(|data|));
    }
  }

  /** A full group of alphabet characters in front keeps a padded text padded. */
  lemma PrependGroup(head: string, rest: string, pad: nat)
    requires |head| == 4 && IsAlphabetChar(head[0]) && IsAlphabetChar(head[1])
    requires IsAlphabetChar(head[2]) && IsAlphabetChar(head[3])
    requires PaddedText(rest, pad)
    ensures PaddedText(head + rest, pad)
  {
    assert forall i :: 4 <= i < |head + rest| ==> (head + rest)[i] == rest[i - 4];
  }

  datatype DecodeError = BadLength | BadCharacter | NonZeroPadBits

  /** Four sextets (24 bits) packed into three bytes, most significant bits first. */
  function Pack(v0: Sextet, v1: Sextet, v2: Sextet, v3: Sextet): seq<Byte> {
    [v0 * 4 + v1 / 16, v1 % 16 * 16 + v2 / 4, v2 % 4 * 64 + v3]
  }

  /** Four alphabet characters back to three bytes. */
  function DecodeQuad(c0: char, c1: char, c2: char, c3: char): (r: Result<seq<Byte>, DecodeError>)
    ensures r.Success? ==> |r.value| == 3
  {
    if !(IsAlphabetChar(c0) && IsAlphabetChar(c1) && IsAlphabetChar(c2) && IsAlphabetChar(c3)) then
      Failure(BadCharacter)
    else
      Success(Pack(ValueOf(c0), ValueOf(c1), ValueOf(c2), ValueOf(c3)))
  }

  /** The last four characters, which may end in one or two '='. Bits filled in by the
      padding must be zero, so that every byte string has exactly one encoding. */
  function DecodeFinalQuad(c0: char, c1: char, c2: char, c3: char): (r: Result<seq<Byte>, DecodeError>)
    ensures r.Success? ==> 1 <= |r.value| <= 3
  {
    if c2 == PadChar && c3 == PadChar then
      if !(IsAlphabetChar(c0) && IsAlphabetChar(c1)) then Failure(BadCharacter)
      else if ValueOf(c1) % 16 != 0 then Failure(NonZeroPadBits)
      else Success([ValueOf(c0) * 4 + ValueOf(c1) / 16])
    else if c3 == PadChar then
      if !(IsAlphabetChar(c0) && IsAlphabetChar(c1) && IsAlphabetChar(c2)) then Failure(BadCharacter)
      else if ValueOf(c2) % 4 != 0 then Failure(NonZeroPadBits)
      else
        var v0, v1, v2 := ValueOf(c0), ValueOf(c1), ValueOf(c2);
        Success([v0 * 4 + v1 / 16, v1 % 16 * 16 + v2 / 4])
    else
      DecodeQuad(c0, c1, c2, c3)
  }

  /** Strict decoding: groups of four alphabet characters, padding only in the last group. */
  function Decode(s: string): (r: Result<seq<Byte>, DecodeError>)
    ensures r.Success? ==> |s| == 4 * ((|r.value| + 2) / 3)
    decreases |s|
  {
    if |s| % 4 != 0 then Failure(BadLength)
    else if |s| == 0 then Success([])
    else if |s| == 4 then
      var r := DecodeFinalQuad(s[0], s[1], s[2], s[3]);
      if r.Success? then GroupsOfOne(|r.value|); r else r
    else
      match DecodeQuad(s[0], s[1], s[2], s[3])
      case Failure(e) => Failure(e)
      case Success(head) =>
        match Decode(s[4..])
        case Failure(e) => Failure(e)
        case Success(tail) => GroupsStep(|tail|); Success(head + tail)
  }

  lemma GroupsOfOne(n: nat)
    requires 1 <= n <= 3
    ensures 4 * ((n + 2) / 3) == 4
  {
  }

  lemma GroupsStep(n: nat)
    ensures 4 * ((n + 3 + 2) / 3) == 4 + 4 * ((n + 2) / 3)
  {
  }

  lemma TripleRoundTrip(b0: Byte, b1: Byte, b2: Byte)
    ensures var q := EncodeTriple(b0, b1, b2); DecodeQuad(q[0], q[1], q[2], q[3]) == Success([b0, b1, b2])
  {
    var v0, v1, v2, v3 := b0 / 4, b0 % 4 * 16 + b1 / 16, b1 % 16 * 4 + b2 / 64, b2 % 64;
    ValueOfCharOf(v0);
    ValueOfCharOf(v1);
    ValueOfCharOf(v2);
    ValueOfCharOf(v3);
    SplitBits(b0, b1, b2, v0, v1, v2, v3);
    QuadOfSextets(v0, v1, v2, v3);
  }

  /** Three bytes cut into sextets are packed back into the same three bytes. */
  lemma SplitBits(b0: Byte, b1: Byte, b2: Byte, v0: Sextet, v1: Sextet, v2: Sextet, v3: Sextet)
    requires v0 == b0 / 4 && v1 == b0 % 4 * 16 + b1 / 16 && v2 == b1 % 16 * 4 + b2 / 64 && v3 == b2 % 64
    ensures Pack(v0, v1, v2, v3) == [b0, b1, b2]
  {
    assert v1 / 16 == b0 % 4 && v1 % 16 == b1 / 16;
    assert v2 / 4 == b1 % 16 && v2 % 4 == b2 / 64;
  }

  /** The four characters of four sextets decode to the sextets packed into bytes. */
  lemma QuadOfSextets(v0: Sextet, v1: Sextet, v2: Sextet, v3: Sextet)
    ensures DecodeQuad(CharOf(v0), CharOf(v1), CharOf(v2), CharOf(v3)) == Success(Pack(v0, v1, v2, v3))
  {
    ValueOfCharOf(v0);
    ValueOfCharOf(v1);
    ValueOfCharOf(v2);
    ValueOfCharOf(v3);
  }

  lemma OneRoundTrip(b0: Byte)
    ensures var q := EncodeOne(b0); DecodeFinalQuad(q[0], q[1], q[2], q[3]) == Success([b0])
  {
    ValueOfCharOf(b0 / 4);
    ValueOfCharOf(b0 % 4 * 16);
  }

  lemma TwoRoundTrip(b0: Byte, b1: Byte)
    ensures var q := EncodeTwo(b0, b1); DecodeFinalQuad(q[0], q[1], q[2], q[3]) == Success([b0, b1])
  {
    ValueOfCharOf(b0 / 4);
    ValueOfCharOf(b0 % 4 * 16 + b1 / 16);
    ValueOfCharOf(b1 % 16 * 4);
  }

  lemma DecodedLength(s: string)
    requires Decode(s).Success?
    ensures |s| % 4 == 0
  {
    var n := |Decode(s).value|;
    assert |s| == 4 * ((n + 2) / 3);
  }

  /** Decoding works group by group from the front. */
  lemma DecodeCons(head: string, rest: string, h: seq<Byte>, t: seq<Byte>)
    requires |head| == 4 && |rest| > 0
    requires DecodeQuad(head[0], head[1], head[2], head[3]) == Success(h) && Decode(rest) == Success(t)
    ensures Decode(head + rest) == Success(h + t)
  {
    var s := head + rest;
    DecodedLength(rest);
    GroupMultiple(|rest|);
    DecodeUnfold(s);
    assert s[4..] == rest;
    assert s[0] == head[0] && s[1] == head[1] && s[2] == head[2] && s[3] == head[3];
  }

  lemma GroupMultiple(n: nat)
    requires n % 4 == 0
    ensures (4 + n) % 4 == 0
  {
  }

  /** One step of decoding a text longer than one group. */
  lemma DecodeUnfold(s: string)
    requires |s| > 4 && |s| % 4 == 0
    ensures Decode(s) == (match DecodeQuad(s[0], s[1], s[2], s[3])
              case Failure(e) => Failure(e)
              case Success(h) => match Decode(s[4..]) case Failure(e) => Failure(e) case Success(t) => Success(h + t))
  {
  }

  lemma DecodeEncodeOne(data: seq<Byte>)
    requires |data| == 1
    ensures Decode(Encode(data)) == Success(data)
  {
    OneRoundTrip(data[0]);
    DecodeSingleGroup(Encode(data));
    OneByte(data);
  }

  lemma DecodeEncodeTwo(data: seq<Byte>)
    requires |data| == 2
    ensures Decode(Encode(data)) == Success(data)
  {
    TwoRoundTrip(data[0], data[1]);
    DecodeSingleGroup(Encode(data));
    TwoBytes(data);
  }

  lemma DecodeEncodeThree(data: seq<Byte>)
    requires |data| == 3
    ensures Decode(Encode(data)) == Success(data)
  {
    var q := EncodeTriple(data[0], data[1], data[2]);
    EncodeCons(data, []);
    assert Encode(data) == q;
    TripleRoundTrip(data[0], data[1], data[2]);
    DecodeSingleGroup(q);
    FinalQuadFull(q[0], q[1], q[2], q[3]);
    assert Decode(q) == Success([data[0], data[1], data[2]]);
    ThreeBytes(data);
  }

  lemma OneByte(data: seq<Byte>)
    requires |data| == 1
    ensures data == [data[0]]
  {
  }

  lemma TwoBytes(data: seq<Byte>)
    requires |data| == 2
    ensures data == [data[0], data[1]]
  {
  }

  lemma OneGroup(s: string)
    requires |s| == 4
    ensures s == [s[0], s[1], s[2], s[3]]
  {
  }

  lemma ThreeBytes(data: seq<Byte>)
    requires |data| == 3
    ensures data == [data[0], data[1], data[2]]
  {
  }

  /** A final group without padding is decoded like any other group. */
  lemma FinalQuadFull(c0: char, c1: char, c2: char, c3: char)
    requires IsAlphabetChar(c3)
    ensures DecodeFinalQuad(c0, c1, c2, c3) == DecodeQuad(c0, c1, c2, c3)
  {
  }

  /** A text of one group is decoded as the final group. */
  lemma DecodeSingleGroup(s: string)
    requires |s| == 4
    ensures Decode(s) == DecodeFinalQuad(s[0], s[1], s[2], s[3])
  {
  }

  /** Encoding works group by group from the front. */
  lemma EncodeCons(h: seq<Byte>, t: seq<Byte>)
    requires |h| == 3
    ensures Encode(h + t) == EncodeTriple(h[0], h[1], h[2]) + Encode(t)
  {
    var b := h + t;
    assert b[0] == h[0] && b[1] == h[1] && b[2] == h[2];
    assert b[3..] == t;
    if |t| == 0 {
      assert EncodeTriple(h[0], h[1], h[2]) + Encode(t) == EncodeTriple(h[0], h[1], h[2]);
    }
  }

  /** A text of at least one group is its first four characters followed by the rest. */
  lemma GroupSplit(s: string)
    requires |s| >= 4
    ensures s == [s[0], s[1], s[2], s[3]] + s[4..]
  {
  }

  /** A leading group of three bytes decodes ahead of the rest. */
  lemma DecodeEncodeLonger(data: seq<Byte>)
    requires |data| > 3
    requires Decode(Encode(data[3..])) == Success(data[3..])
    ensures Decode(Encode(data)) == Success(data)
  {
    var head, rest := EncodeTriple(data[0], data[1], data[2]), Encode(data[3..]);
    assert Encode(data) == head + rest;
    TripleRoundTrip(data[0], data[1], data[2]);
    var first: seq<Byte> := [data[0], data[1], data[2]];
    DecodeCons(head, rest, first, data[3..]);
    SplitFirstThree(data);
  }

  lemma SplitFirstThree(data: seq<Byte>)
    requires |data| >= 3
    ensures [data[0], data[1], data[2]] + data[3..] == data
  {
  }

  /** Decoding an encoding gives back exactly the encoded bytes. */
  lemma {:induction false} DecodeEncode(data: seq<Byte>)
    ensures Decode(Encode(data)) == Success(data)
    decreases |data|
  {
    if |data| == 1 {
      DecodeEncodeOne(data);
    } else if |data| == 2 {
      DecodeEncodeTwo(data);
    } else if |data| == 3 {
      DecodeEncodeThree(data);
    } else if |data| > 3 {
      DecodeEncode(data[3..]);
      DecodeEncodeLonger(data);
    }
  }

  /** A decoded full group re-encodes to the same four characters. */
  lemma QuadReencodes(c0: char, c1: char, c2: char, c3: char, b: seq<Byte>)
    requires DecodeQuad(c0, c1, c2, c3) == Success(b)
    ensures |b| == 3 && EncodeTriple(b[0], b[1], b[2]) == [c0, c1, c2, c3]
  {
    assert IsAlphabetChar(c0) && IsAlphabetChar(c1) && IsAlphabetChar(c2) && IsAlphabetChar(c3);
    var v0, v1, v2, v3 := ValueOf(c0), ValueOf(c1), ValueOf(c2), ValueOf(c3);
    assert b == Pack(v0, v1, v2, v3);
    TripleOfSextets(v0, v1, v2, v3);
    CharOfValueOf(c0);
    CharOfValueOf(c1);
    CharOfValueOf(c2);
    CharOfValueOf(c3);
  }

  /** Four sextets packed into bytes encode to the four characters of the sextets. */
  lemma TripleOfSextets(v0: Sextet, v1: Sextet, v2: Sextet, v3: Sextet)
    ensures var b := Pack(v0, v1, v2, v3); EncodeTriple(b[0], b[1], b[2]) == [CharOf(v0), CharOf(v1), CharOf(v2), CharOf(v3)]
  {
    var b := Pack(v0, v1, v2, v3);
    RegroupBits(v0, v1, v2, v3, b[0], b[1], b[2]);
  }

  /** Sextets packed into bytes by the decoder are unpacked to the same sextets. */
  lemma RegroupBits(v0: Sextet, v1: Sextet, v2: Sextet, v3: Sextet, b0: Byte, b1: Byte, b2: Byte)
    requires b0 == v0 * 4 + v1 / 16 && b1 == v1 % 16 * 16 + v2 / 4 && b2 == v2 % 4 * 64 + v3
    ensures b0 / 4 == v0 && b0 % 4 * 16 + b1 / 16 == v1 && b1 % 16 * 4 + b2 / 64 == v2 && b2 % 64 == v3
  {
  }

  lemma RegroupOneByte(v0: Sextet, v1: Sextet)
    requires v1 % 16 == 0
    ensures var b0 := v0 * 4 + v1 / 16; b0 / 4 == v0 && b0 % 4 * 16 == v1
  {
  }

  lemma RegroupTwoBytes(v0: Sextet, v1: Sextet, v2: Sextet)
    requires v2 % 4 == 0
    ensures var b0, b1 := v0 * 4 + v1 / 16, v1 % 16 * 16 + v2 / 4;
            && b0 / 4 == v0
            && b0 % 4 * 16 + b1 / 16 == v1
            && b1 % 16 * 4 == v2
  {
  }

  /** A decoded final group re-encodes to the same four characters. */
  lemma FinalQuadReencodes(c0: char, c1: char, c2: char, c3: char, b: seq<Byte>)
    requires DecodeFinalQuad(c0, c1, c2, c3) == Success(b)
    ensures Encode(b) == [c0, c1, c2, c3]
  {
    if c2 == PadChar && c3 == PadChar {
      DoublePadReencodes(c0, c1, b);
    } else if c3 == PadChar {
      SinglePadReencodes(c0, c1, c2, b);
    } else {
      QuadReencodes(c0, c1, c2, c3, b);
      assert b[3..] == [];
    }
  }

  lemma DoublePadReencodes(c0: char, c1: char, b: seq<Byte>)
    requires DecodeFinalQuad(c0, c1, PadChar, PadChar) == Success(b)
    ensures Encode(b) == [c0, c1, PadChar, PadChar]
  {
    RegroupOneByte(ValueOf(c0), ValueOf(c1));
    CharOfValueOf(c0);
    CharOfValueOf(c1);
    assert |b| == 1 && Encode(b) == EncodeOne(b[0]);
  }

  lemma SinglePadReencodes(c0: char, c1: char, c2: char, b: seq<Byte>)
    requires c2 != PadChar
    requires DecodeFinalQuad(c0, c1, c2, PadChar) == Success(b)
    ensures Encode(b) == [c0, c1, c2, PadChar]
  {
    RegroupTwoBytes(ValueOf(c0), ValueOf(c1), ValueOf(c2));
    CharOfValueOf(c0);
    CharOfValueOf(c1);
    CharOfValueOf(c2);
    assert |b| == 2 && Encode(b) == EncodeTwo(b[0], b[1]);
  }

  /** A text that decodes successfully is the encoding of what it decodes to: the
      decoder accepts exactly the texts `Encode` produces. */
  lemma {:induction false} EncodeDecode(s: string)
    requires Decode(s).Success?
    ensures Encode(Decode(s).value) == s
    decreases |s|
  {
    if |s| == 4 {
      DecodeSingleGroup(s);
      FinalQuadReencodes(s[0], s[1], s[2], s[3], Decode(s).value);
      OneGroup(s);
    } else if |s| > 4 {
      DecodeLonger(s);
    }
  }

  /** The step of `EncodeDecode` for a text of more than one group. */
  lemma {:induction false} DecodeLonger(s: string)
    requires |s| > 4 && Decode(s).Success?
    ensures Encode(Decode(s).value) == s
    decreases |s|, 0
  {
    DecodedLength(s);
    DecodeUnfold(s);
    var h := DecodeQuad(s[0], s[1], s[2], s[3]).value;
    var t := Decode(s[4..]).value;
    assert Decode(s).value == h + t;
    QuadReencodes(s[0], s[1], s[2], s[3], h);
    EncodeDecode(s[4..]);
    EncodeCons(h, t);
    GroupSplit(s);
  }
}

=== FILE: batch_job.dfy ===
/** The batch transcription driver of 04_base_speech.py: the region read from the service
    URL, the submission id read from the submission response, the status-polling loop, and
    the selection and reading of the transcription files once the job has succeeded.
    Every REST helper is outside the model: its responses are inputs, the download is an
    event, and the content a download saves is a function of its URL. */
module BatchJob {
  import opened Wrappers
  import opened Errors
  import opened JsonValues
  import Strings
  import Paths
  import Decimal

  /** The service URL the script is configured with,
      "https://australiaeast.api.cognitive.microsoft.com", written as its parts. */
  const ApiUrl: string := "https:" + "//" + "australiaeast" + "." + "api.cognitive.microsoft.com"

  /** `r` is the text of `url` from `start` up to the first '.', the first "//" or the end
      of the URL, whichever comes first. */
  ghost predicate RegionAt(url: string, start: nat, r: string) {
    && start + |r| <= |url| && url[start..start + |r|] == r
    && '.' !in r
    && (forall j: nat :: start <= j < start + |r| ==> !Strings.OccursAt(url, "//", j))
    && (start + |r| == |url| || url[start + |r|] == '.' || Strings.OccursAt(url, "//", start + |r|))
  }

  /** `api_url.split("//")[1].split(".")[0]`: the text after the first "//" up to the next
      '.' or "//"; IndexError when the URL has no "//". */
  function Region(url: string): (r: Result<string, Raised>)
    ensures r.Failure? <==> !Strings.Contains(url, "//")
    ensures r.Failure? ==> r.error == IndexError
    ensures r.Success? ==> Strings.Find(url, "//").Some? && RegionAt(url, Strings.Find(url, "//").value + 2, r.value)
  {
    var parts := Strings.Split(url, "//");
    Strings.FindLeftmost(url, "//");
    Strings.SplitSingle(url, "//");
    if |parts| < 2 then Failure(IndexError)
    else
      var r := Strings.Split(parts[1], ".")[0];
      RegionBounds(url, parts[1], Strings.Find(url, "//").value + 2, r);
      Success(r)
  }

  /** The facts behind the contract of `Region`, from the two splits: `host` is the part
      after the first "//", and the region is its part before the first '.'. */
  lemma RegionBounds(url: string, host: string, start: nat, r: string)
    requires Strings.Find(url, "//").Some?
    requires host == Strings.Split(url, "//")[1]
    requires start == Strings.Find(url, "//").value + 2
    requires r == Strings.Split(host, ".")[0]
    ensures RegionAt(url, start, r)
  {
    HostPart(url, host, start);
    RegionCut(host, r);
    RegionPosition(url, start, host, r);
  }

  /** The part after the first "//" starts right after it and runs to the next "//" or
      to the end. */
  lemma HostPart(url: string, host: string, start: nat)
    requires Strings.Find(url, "//").Some?
    requires host == Strings.Split(url, "//")[1]
    requires start == Strings.Find(url, "//").value + 2
    ensures start <= |url| && |host| <= |url| - start && url[start..][..|host|] == host
    ensures |host| == |url| - start || Strings.OccursAt(url[start..], "//", |host|)
    ensures forall j: nat :: j < |host| ==> !Strings.OccursAt(url[start..], "//", j)
  {
    Strings.SplitAtFirst(url, "//", start - 2);
    Strings.FirstPart(url[start..], "//");
  }

  /** The part before the first '.' has no '.', starts the text, and ends at the '.'. */
  lemma RegionCut(host: string, r: string)
    requires r == Strings.Split(host, ".")[0]
    ensures |r| <= |host| && host[..|r|] == r
    ensures |r| == |host| || Strings.OccursAt(host, ".", |r|)
    ensures '.' !in r
  {
    Strings.FirstPart(host, ".");
    Strings.CharAbsent(r, '.');
  }

  /** Where the region sits in the URL, given the two cuts that produce it: `host` starts
      the text after "//" and ends at the next "//" or the end, and `r` starts `host` and
      ends at its first '.' or its end. */
  lemma RegionPosition(url: string, start: nat, host: string, r: string)
    requires start <= |url|
    requires |host| <= |url| - start && url[start..][..|host|] == host
    requires |host| == |url| - start || Strings.OccursAt(url[start..], "//", |host|)
    requires forall j: nat :: j < |host| ==> !Strings.OccursAt(url[start..], "//", j)
    requires |r| <= |host| && host[..|r|] == r
    requires |r| == |host| || Strings.OccursAt(host, ".", |r|)
    requires '.' !in r
    ensures RegionAt(url, start, r)
  {
    assert url[start..start + |r|] == url[start..][..|host|][..|r|];
    forall j: nat | start <= j < start + |r|
      ensures !Strings.OccursAt(url, "//", j)
    {
      if Strings.OccursAt(url, "//", j) {
        Strings.OccursFromSuffix(url, start, "//", j - start);
      }
    }
    if |r| < |host| {
      assert host[|r|..|r| + 1] == ".";
      assert url[start + |r|] == host[|r|];
    } else if |host| < |url| - start {
      Strings.OccursInSuffix(url, start, "//", |host|);
    }
  }

  /** The region is determined by where it starts. */
  lemma RegionUnique(url: string, start: nat, x: string, y: string)
    requires RegionAt(url, start, x) && RegionAt(url, start, y)
    ensures x == y
  {
    assert forall k :: 0 <= k < |x| ==> x[k] == url[start + k];
    assert forall k :: 0 <= k < |y| ==> y[k] == url[start + k];
    assert |x| == |y|;
  }

  /** In `scheme//host.rest`, with no '/' in the scheme or the host and no '.' in the host,
      the first "//" follows the scheme and `host` is the text after it up to the '.'. */
  lemma HostAfterScheme(scheme: string, host: string, rest: string)
    requires '/' !in scheme && '/' !in host && '.' !in host
    ensures var url := scheme + "//" + host + "." + rest;
            Strings.Find(url, "//") == Some(|scheme|) && RegionAt(url, |scheme| + 2, host)
  {
    var url := scheme + "//" + host + "." + rest;
    var start := |scheme| + 2;
    assert Strings.OccursAt(url, "//", |scheme|);
    forall j: nat | j < |scheme| || start <= j < start + |host|
      ensures !Strings.OccursAt(url, "//", j)
    {
      assert url[j] != '/';
    }
    assert url[start..start + |host|] == host;
    assert url[start + |host|] == '.';
    Strings.FindLeftmost(url, "//");
  }

  /** A URL `scheme//host.rest` whose scheme has no '/' and whose host has no '/' or '.'
      has region `host`. */
  lemma RegionOfHost(scheme: string, host: string, rest: string)
    requires '/' !in scheme && '/' !in host && '.' !in host
    ensures Region(scheme + "//" + host + "." + rest) == Success(host)
  {
    var url := scheme + "//" + host + "." + rest;
    HostAfterScheme(scheme, host, rest);
    RegionUnique(url, |scheme| + 2, Region(url).value, host);
  }

  /** The configured service URL is in region "australiaeast". */
  lemma ConfiguredRegion()
    ensures Region(ApiUrl) == Success("australiaeast")
  {
    var scheme, host, rest := "https:", "australiaeast", "api.cognitive.microsoft.com";
    assert '/' !in scheme && '/' !in host && '.' !in host;
    RegionOfHost(scheme, host, rest);
  }

  /** The value of the 'self' link of the submission response: null when the response is
      None or has no such key. */
  function SelfLink(resp: Response): Json {
    if resp.Some? then Get(resp.value, "self", JNull) else JNull
  }

  /** The id of the submitted job: None unless the response and its 'self' link are truthy; then
      the text after the last '/' of the link, which raises AttributeError when the link is
      not a string. */
  function SubmissionId(resp: Response): (r: Result<Option<string>, Raised>)
    ensures r.Failure? <==> Truthy(SelfLink(resp)) && !SelfLink(resp).JString?
    ensures r.Failure? ==> r.error == AttributeError
    ensures r == Success(None) <==> !Truthy(SelfLink(resp))
    ensures r.Success? && r.value.Some? ==>
              SelfLink(resp).JString? && r.value.value == Paths.Basename(SelfLink(resp).s)
  {
    if TruthyResponse(resp) && Truthy(Get(resp.value, "self", JNull)) then
      match Get(resp.value, "self", JNull)
      case JString(link) =>
        Paths.LastSplitPartIsBasename(link);
        Success(Some(Strings.LastPart(link, '/')))
      case _ => Failure(AttributeError)
    else Success(None)
  }

  /** `if submission_id:` — the loop is entered only for a non-empty id. */
  predicate StartsPolling(id: Option<string>) {
    id.Some? && id.value != ""
  }

  /** A truthy 'self' link starts the polling exactly when it is a string that does not
      end with '/'. */
  lemma PollingNeedsIdAfterSlash(resp: Response)
    requires SubmissionId(resp).Success?
    ensures StartsPolling(SubmissionId(resp).value) <==>
              SelfLink(resp).JString? && |SelfLink(resp).s| > 0 && SelfLink(resp).s[|SelfLink(resp).s| - 1] != '/'
  {
    if SelfLink(resp).JString? && |SelfLink(resp).s| > 0 {
      var link := SelfLink(resp).s;
      var base := Paths.Basename(link);
      assert base == "" ==> link[|link| - 1] == '/';
      assert link[|link| - 1] == '/' ==> base == "";
    }
  }

  /** What one turn of the `while not completed_flag` loop does after the status request. */
  datatype Action =
    | ListFilesAndFinish  // "Succeeded": fetch the file list, process it, leave the loop
    | WaitAndRetry        // "NotStarted" or "Running": sleep five seconds, ask again
    | FinishFailed        // "Failed": leave the loop without fetching anything
    | RetryAtOnce         // no response, no status, or another status: ask again at once

  /** The status text of a status response, when it has one. */
  function StatusOf(resp: Response): Option<string> {
    if resp.Some? && "status" in resp.value && resp.value["status"].JString? then
      Some(resp.value["status"].s)
    else None
  }

  /** The action a status response calls for, read off its status text. */
  function Step(resp: Response): Action {
    match StatusOf(resp)
    case None => RetryAtOnce
    case Some(s) =>
      if s == "Succeeded" then ListFilesAndFinish
      else if s == "NotStarted" || s == "Running" then WaitAndRetry
      else if s == "Failed" then FinishFailed
      else RetryAtOnce
  }

  /** The action is chosen by the status text alone: "Succeeded" lists the files,
      "NotStarted" and "Running" wait, "Failed" stops; anything else, or no status at all,
      asks again. */
  lemma StepByStatus(resp: Response)
    ensures Step(resp) == ListFilesAndFinish <==> StatusOf(resp) == Some("Succeeded")
    ensures Step(resp) == WaitAndRetry <==> StatusOf(resp) == Some("NotStarted") || StatusOf(resp) == Some("Running")
    ensures Step(resp) == FinishFailed <==> StatusOf(resp) == Some("Failed")
  {
  }

  /** `Step` agrees with the loop's `if`/`elif` chain as the script writes it: each test
      checks that the response is truthy and compares `response.get("status")`, and the
      waiting test is `a and b or c and d`, Python's `and` binding tighter than `or`. */
  lemma StepIsElifChain(resp: Response)
    ensures Step(resp) ==
              if TruthyResponse(resp) && Get(resp.value, "status", JNull) == JString("Succeeded") then
                ListFilesAndFinish
              else if (TruthyResponse(resp) && Get(resp.value, "status", JNull) == JString("NotStarted"))
                   || (TruthyResponse(resp) && Get(resp.value, "status", JNull) == JString("Running")) then
                WaitAndRetry
              else if TruthyResponse(resp) && Get(resp.value, "status", JNull) == JString("Failed") then
                FinishFailed
              else
                RetryAtOnce
  {
  }

  predicate Terminal(a: Action) {
    a == ListFilesAndFinish || a == FinishFailed
  }

  /** The index of the first response that ends the loop, if any does: the reference the
      loop is measured against. */
  function FirstTerminal(rs: seq<Response>): (r: Option<nat>)
    ensures r.Some? ==> r.value < |rs| && Terminal(Step(rs[r.value]))
    ensures r.Some? ==> forall j :: 0 <= j < r.value ==> !Terminal(Step(rs[j]))
    ensures r.None? ==> forall j :: 0 <= j < |rs| ==> !Terminal(Step(rs[j]))
    decreases |rs|
  {
    if |rs| == 0 then None
    else if Terminal(Step(rs[0])) then Some(0)
    else
      match FirstTerminal(rs[1..])
      case None => None
      case Some(i) => Some(i + 1)
  }

  /** The number of status requests the loop makes on these responses. */
  function PolledCount(rs: seq<Response>): nat {
    match FirstTerminal(rs)
    case Some(i) => i + 1
    case None => |rs|
  }

  /** The loop ends on a response whose step is `a`. */
  predicate EndsWith(rs: seq<Response>, a: Action) {
    FirstTerminal(rs).Some? && Step(rs[FirstTerminal(rs).value]) == a
  }

  /** The number of responses that ask for a wait. */
  function WaitCount(rs: seq<Response>): nat
    decreases |rs|
  {
    if |rs| == 0 then 0
    else (if Step(rs[0]) == WaitAndRetry then 1 else 0) + WaitCount(rs[1..])
  }

  /** The observable effects of the script: the REST calls, the files written, the sleeps. */
  datatype Event =
    | PollStatus(id: string)              // get_transcription
    | ListFiles(id: string)               // get_transcription_files
    | Download(url: Json, path: string)   // download_file_from_web
    | WriteText(path: string, text: string)
    | Sleep(seconds: nat)

  datatype Kind = PollKind | ListKind | DownloadKind | WriteKind | SleepKind

  function KindOf(e: Event): Kind {
    match e
    case PollStatus(_) => PollKind
    case ListFiles(_) => ListKind
    case Download(_, _) => DownloadKind
    case WriteText(_, _) => WriteKind
    case Sleep(_) => SleepKind
  }

  /** The number of events of kind `k`. */
  function Count(events: seq<Event>, k: Kind): nat
    decreases |events|
  {
    if |events| == 0 then 0
    else (if KindOf(events[0]) == k then 1 else 0) + Count(events[1..], k)
  }

  /** No event of a kind that is counted zero times. */
  lemma {:induction false} CountZero(events: seq<Event>, k: Kind)
    requires Count(events, k) == 0
    ensures forall i :: 0 <= i < |events| ==> KindOf(events[i]) != k
    decreases |events|
  {
    if |events| > 0 {
      CountZero(events[1..], k);
      assert forall i :: 1 <= i < |events| ==> events[i] == events[1..][i - 1];
    }
  }

  lemma {:induction false} CountAppend(a: seq<Event>, b: seq<Event>, k: Kind)
    ensures Count(a + b, k) == Count(a, k) + Count(b, k)
    decreases |a|
  {
    if |a| == 0 {
      assert a + b == b;
    } else {
      assert (a + b)[1..] == a[1..] + b;
      CountAppend(a[1..], b, k);
    }
  }

  lemma CountAppendAll(a: seq<Event>, b: seq<Event>)
    ensures forall k :: Count(a + b, k) == Count(a, k) + Count(b, k)
  {
    forall k {
      CountAppend(a, b, k);
    }
  }

  lemma AppendAssoc<T>(a: seq<T>, b: seq<T>, c: seq<T>)
    ensures (a + b) + c == a + (b + c)
  {
  }

  /** The target paths of the downloads, in order. */
  function DownloadedPaths(events: seq<Event>): seq<string>
    decreases |events|
  {
    if |events| == 0 then []
    else (if events[0].Download? then [events[0].path] else []) + DownloadedPaths(events[1..])
  }

  lemma {:induction false} DownloadedPathsAppend(a: seq<Event>, b: seq<Event>)
    ensures DownloadedPaths(a + b) == DownloadedPaths(a) + DownloadedPaths(b)
    decreases |a|
  {
    if |a| == 0 {
      assert a + b == b;
    } else {
      var first := if a[0].Download? then [a[0].path] else [];
      assert (a + b)[0] == a[0] && (a + b)[1..] == a[1..] + b;
      assert DownloadedPaths(a + b) == first + DownloadedPaths(a[1..] + b);
      DownloadedPathsAppend(a[1..], b);
      assert DownloadedPaths(a) == first + DownloadedPaths(a[1..]);
      AppendAssoc(first, DownloadedPaths(a[1..]), DownloadedPaths(b));
    }
  }

  /** The file operations among the events, in order: the downloads and the text writes. */
  function FileEffects(events: seq<Event>): seq<Event>
    decreases |events|
  {
    if |events| == 0 then []
    else (if events[0].Download? || events[0].WriteText? then [events[0]] else []) + FileEffects(events[1..])
  }

  lemma {:induction false} FileEffectsAppend(a: seq<Event>, b: seq<Event>)
    ensures FileEffects(a + b) == FileEffects(a) + FileEffects(b)
    decreases |a|
  {
    if |a| == 0 {
      assert a + b == b;
    } else {
      var first := if a[0].Download? || a[0].WriteText? then [a[0]] else [];
      assert (a + b)[0] == a[0] && (a + b)[1..] == a[1..] + b;
      assert FileEffects(a + b) == first + FileEffects(a[1..] + b);
      FileEffectsAppend(a[1..], b);
      assert FileEffects(a) == first + FileEffects(a[1..]);
      AppendAssoc(first, FileEffects(a[1..]), FileEffects(b));
    }
  }

  /** How a run ends: the loop completed, an exception escaped, or the responses given ran
      out while the loop was still asking. */
  datatype Outcome = Done | Crashed(error: Raised) | StillPolling

  datatype Run = Run(events: seq<Event>, outcome: Outcome)

  const PollSeconds: nat := 5

  /** `os.path.join(output_path, f'base_speech_transcript_{f}_' + basename + '.json')`. */
  function JsonPath(outputPath: string, f: nat, base: string): string {
    Paths.JoinPath(outputPath, "base_speech_transcript_" + Decimal.FromNat(f) + "_" + base + ".json")
  }

  /** The same name ending in ".txt", for the extracted text. */
  function TextPath(outputPath: string, f: nat, base: string): string {
    Paths.JoinPath(outputPath, "base_speech_transcript_" + Decimal.FromNat(f) + "_" + base + ".txt")
  }

  /** Files of different positions in the list get different download paths. */
  lemma JsonPathInjective(outputPath: string, a: nat, b: nat, base: string)
    requires JsonPath(outputPath, a, base) == JsonPath(outputPath, b, base)
    ensures a == b
  {
    var prefix := "base_speech_transcript_";
    var tail := "_" + base + ".json";
    var na := prefix + Decimal.FromNat(a) + "_" + base + ".json";
    var nb := prefix + Decimal.FromNat(b) + "_" + base + ".json";
    assert na[0] == 'b' && nb[0] == 'b';
    Paths.JoinPathInjective(outputPath, na, nb);
    assert na == prefix + (Decimal.FromNat(a) + ['_'] + (base + ".json"));
    assert nb == prefix + (Decimal.FromNat(b) + ['_'] + (base + ".json"));
    assert na[|prefix|..] == Decimal.FromNat(a) + ['_'] + (base + ".json");
    assert nb[|prefix|..] == Decimal.FromNat(b) + ['_'] + (base + ".json");
    Decimal.FromNatDelimited(a, b, '_', base + ".json", base + ".json");
  }

  /** `phrases[0]` on the value found under 'combinedRecognizedPhrases'. */
  function FirstPhrase(phrases: Json): (r: Result<Json, Raised>)
    ensures phrases.JArray? ==> (r.Failure? <==> |phrases.items| == 0)
    ensures phrases.JArray? && |phrases.items| > 0 ==> r == Success(phrases.items[0])
    ensures r.Failure? && phrases.JArray? ==> r.error == IndexError
    ensures phrases.JString? ==>
              r == if |phrases.s| == 0 then Failure(IndexError) else Success(JString([phrases.s[0]]))
    ensures phrases.JObject? ==> r == Failure(KeyError)
    ensures phrases.JNull? || phrases.JNumber? || phrases.JBool? ==> r == Failure(TypeError)
  {
    match phrases
    case JArray(items) => if |items| == 0 then Failure(IndexError) else Success(items[0])
    case JString(text) => if |text| == 0 then Failure(IndexError) else Success(JString([text[0]]))
    case JObject(_) => Failure(KeyError)   // JSON keys are strings, never 0
    case _ => Failure(TypeError)           // None, numbers and booleans take no subscript
  }

  /** `phrase.get('display', '')`, then the write of the result, which must be a string. */
  function DisplayOf(phrase: Json): Result<string, Raised> {
    match phrase
    case JObject(fields) =>
      (match Get(fields, "display", JString(""))
       case JString(text) => Success(text)
       case _ => Failure(TypeError))
    case _ => Failure(AttributeError)
  }

  /** `data.get('combinedRecognizedPhrases', [{}])[0].get('display', '')`, written out as the
      text. A missing list or a missing field gives ''; an empty list raises IndexError;
      other shapes raise the error Python raises for them. */
  function DisplayText(data: Json): (r: Result<string, Raised>)
    ensures data.JObject? && "combinedRecognizedPhrases" !in data.fields ==> r == Success("")
    ensures (data.JObject? && "combinedRecognizedPhrases" in data.fields
             && data.fields["combinedRecognizedPhrases"] == JArray([])) ==> r == Failure(IndexError)
    ensures !data.JObject? ==> r == Failure(AttributeError)
    ensures r.Success? && r.value != "" ==>
              && data.JObject? && "combinedRecognizedPhrases" in data.fields
              && data.fields["combinedRecognizedPhrases"].JArray?
              && |data.fields["combinedRecognizedPhrases"].items| > 0
              && data.fields["combinedRecognizedPhrases"].items[0].JObject?
              && Get(data.fields["combinedRecognizedPhrases"].items[0].fields, "display", JNull) == JString(r.value)
    ensures (data.JObject? && "combinedRecognizedPhrases" in data.fields
             && data.fields["combinedRecognizedPhrases"].JArray?
             && |data.fields["combinedRecognizedPhrases"].items| > 0) ==>
              var phrase := data.fields["combinedRecognizedPhrases"].items[0];
              && (!phrase.JObject? ==> r == Failure(AttributeError))
              && (phrase.JObject? && "display" !in phrase.fields ==> r == Success(""))
              && (phrase.JObject? && "display" in phrase.fields && phrase.fields["display"].JString? ==>
                    r == Success(phrase.fields["display"].s))
              && (phrase.JObject? && "display" in phrase.fields && !phrase.fields["display"].JString? ==>
                    r == Failure(TypeError))
    ensures r.Success? ==>
              && data.JObject?
              && ("combinedRecognizedPhrases" !in data.fields
                  || (&& data.fields["combinedRecognizedPhrases"].JArray?
                      && |data.fields["combinedRecognizedPhrases"].items| > 0
                      && data.fields["combinedRecognizedPhrases"].items[0].JObject?))
    ensures data.JObject? && "combinedRecognizedPhrases" in data.fields
            && !data.fields["combinedRecognizedPhrases"].JArray? ==>
              var p := data.fields["combinedRecognizedPhrases"];
              r == Failure(if p.JString? && |p.s| == 0 then IndexError
                           else if p.JString? then AttributeError
                           else if p.JObject? then KeyError
                           else TypeError)
  {
    if !data.JObject? then Failure(AttributeError)
    else
      match FirstPhrase(Get(data.fields, "combinedRecognizedPhrases", JArray([JObject(map[])])))
      case Failure(e) => Failure(e)
      case Success(phrase) => DisplayOf(phrase)
  }

  /** A transcription file entry: a dict whose 'kind' is "Transcription". */
  predicate IsTranscription(info: Json) {
    info.JObject? && Get(info.fields, "kind", JNull) == JString("Transcription")
  }

  /** `file_info.get("links", {})`. */
  function Links(info: Json): Json
    requires info.JObject?
  {
    Get(info.fields, "links", JObject(map[]))
  }

  /** `file_info.get("links", {}).get("contentUrl")`. */
  function ContentUrl(info: Json): Json
    requires info.JObject? && Links(info).JObject?
  {
    Get(Links(info).fields, "contentUrl", JNull)
  }

  /** An entry the loop body gets through: a dict whose links are a dict, and, when it is a
      transcription, whose downloaded document yields a text. */
  predicate FileOk(info: Json, fetch: Json -> Json) {
    && info.JObject? && Links(info).JObject?
    && (IsTranscription(info) ==> DisplayText(fetch(ContentUrl(info))).Success?)
  }

  /** Every entry of the list gets through the loop body. */
  predicate AllOk(values: seq<Json>, fetch: Json -> Json) {
    forall k :: 0 <= k < |values| ==> FileOk(values[k], fetch)
  }

  /** What the loop body must do for an entry that gets through: for a transcription,
      download its content URL to the JSON path of its position, then write the display
      text of the downloaded document to the text path of that position; nothing otherwise. */
  function TranscriptionEvents(info: Json, f: nat, fetch: Json -> Json, outputPath: string, base: string): seq<Event>
    requires FileOk(info, fetch)
  {
    if IsTranscription(info) then
      [Download(ContentUrl(info), JsonPath(outputPath, f, base)),
       WriteText(TextPath(outputPath, f, base), DisplayText(fetch(ContentUrl(info))).value)]
    else []
  }

  /** The body of the `for _f, file_info in enumerate(...)` loop for entry `f`: the links are
      read before the kind is tested; only a transcription is downloaded, read and written
      out as text; a report or any other kind is passed over. */
  function FileRun(info: Json, f: nat, fetch: Json -> Json, outputPath: string, base: string): (r: Run)
    ensures r.outcome == Done <==> FileOk(info, fetch)
    ensures r.outcome != StillPolling
    ensures r.outcome == Done ==>
              DownloadedPaths(r.events) == (if IsTranscription(info) then [JsonPath(outputPath, f, base)] else [])
    ensures forall k :: k != DownloadKind && k != WriteKind ==> Count(r.events, k) == 0
    ensures r.outcome == Done ==> r.events == TranscriptionEvents(info, f, fetch, outputPath, base)
    ensures r.outcome.Crashed? ==>
              r.events == if info.JObject? && Links(info).JObject? && IsTranscription(info)
                          then [Download(ContentUrl(info), JsonPath(outputPath, f, base))] else []
  {
    match info
    case JObject(fields) =>
      var kind := Get(fields, "kind", JNull);
      var links := Get(fields, "links", JObject(map[]));
      if !links.JObject? then Run([], Crashed(AttributeError))
      else
        var url := Get(links.fields, "contentUrl", JNull);
        if kind == JString("Transcription") then
          var download := Download(url, JsonPath(outputPath, f, base));
          match DisplayText(fetch(url))
          case Failure(e) => Run([download], Crashed(e))
          case Success(text) =>
            var events := [download, WriteText(TextPath(outputPath, f, base), text)];
            assert events[1..][1..] == [];
            assert DownloadedPaths(events[1..]) == [];
            assert forall k :: k != WriteKind ==> Count(events[1..], k) == 0;
            Run(events, Done)
        else Run([], Done)
    case _ => Run([], Crashed(AttributeError))
  }

  /** The exception an entry raises: AttributeError when the entry or its links are not a
      dict, and otherwise, for a transcription, the error of reading its document. */
  lemma FileRunCrashKind(info: Json, f: nat, fetch: Json -> Json, outputPath: string, base: string)
    ensures !(info.JObject? && Links(info).JObject?) ==>
              FileRun(info, f, fetch, outputPath, base).outcome == Crashed(AttributeError)
    ensures info.JObject? && Links(info).JObject? && IsTranscription(info)
            && DisplayText(fetch(ContentUrl(info))).Failure? ==>
              FileRun(info, f, fetch, outputPath, base).outcome == Crashed(DisplayText(fetch(ContentUrl(info))).error)
  {
  }

  /** The download paths the file list calls for: one per transcription entry, named after
      the entry's position in the whole list. */
  function TranscriptionPaths(values: seq<Json>, f: nat, outputPath: string, base: string): seq<string>
    decreases |values|
  {
    if |values| == 0 then []
    else (if IsTranscription(values[0]) then [JsonPath(outputPath, f, base)] else [])
         + TranscriptionPaths(values[1..], f + 1, outputPath, base)
  }

  /** The file operations the list calls for when no entry raises: those of each entry, in
      list order, entries numbered from `f`. */
  function FileEvents(values: seq<Json>, f: nat, fetch: Json -> Json, outputPath: string, base: string): seq<Event>
    requires AllOk(values, fetch)
    decreases |values|
  {
    if |values| == 0 then []
    else
      assert forall k :: 0 <= k < |values[1..]| ==> values[1..][k] == values[k + 1];
      TranscriptionEvents(values[0], f, fetch, outputPath, base) + FileEvents(values[1..], f + 1, fetch, outputPath, base)
  }

  /** The calls for a list are file operations only. */
  lemma {:induction false} FileEffectsOfFileEvents(values: seq<Json>, f: nat, fetch: Json -> Json, outputPath: string, base: string)
    requires AllOk(values, fetch)
    ensures FileEffects(FileEvents(values, f, fetch, outputPath, base)) == FileEvents(values, f, fetch, outputPath, base)
    decreases |values|
  {
    if |values| > 0 {
      assert forall k :: 0 <= k < |values[1..]| ==> values[1..][k] == values[k + 1];
      var head := TranscriptionEvents(values[0], f, fetch, outputPath, base);
      FileEffectsOfFileEvents(values[1..], f + 1, fetch, outputPath, base);
      FileEffectsAppend(head, FileEvents(values[1..], f + 1, fetch, outputPath, base));
      if IsTranscription(values[0]) {
        FileEffectsPair(head[0], head[1]);
      }
    }
  }

  lemma FileEffectsPair(a: Event, b: Event)
    requires a.Download? && b.WriteText?
    ensures FileEffects([a, b]) == [a, b]
  {
    assert [a, b][1..] == [b] && [b][1..] == [];
    assert FileEffects([b]) == [b];
  }

  /** The path for position `g` is called for exactly when entry `g` is a transcription. */
  lemma {:induction false} TranscriptionPathsExact(values: seq<Json>, f: nat, outputPath: string, base: string, g: nat)
    ensures JsonPath(outputPath, g, base) in TranscriptionPaths(values, f, outputPath, base)
            <==> f <= g < f + |values| && IsTranscription(values[g - f])
    decreases |values|
  {
    if |values| > 0 {
      var head := if IsTranscription(values[0]) then [JsonPath(outputPath, f, base)] else [];
      assert TranscriptionPaths(values, f, outputPath, base) == head + TranscriptionPaths(values[1..], f + 1, outputPath, base);
      TranscriptionPathsExact(values[1..], f + 1, outputPath, base, g);
      if JsonPath(outputPath, g, base) == JsonPath(outputPath, f, base) {
        JsonPathInjective(outputPath, g, f, base);
      }
      if f + 1 <= g < f + |values| {
        assert values[1..][g - (f + 1)] == values[g - f];
      }
    }
  }

  /** The loop over the listed entries, stopping at the first exception. */
  function ProcessFiles(values: seq<Json>, f: nat, fetch: Json -> Json, outputPath: string, base: string): (r: Run)
    ensures r.outcome == Done <==> AllOk(values, fetch)
    ensures r.outcome != StillPolling
    ensures r.outcome == Done ==> DownloadedPaths(r.events) == TranscriptionPaths(values, f, outputPath, base)
    ensures forall k :: k != DownloadKind && k != WriteKind ==> Count(r.events, k) == 0
    decreases |values|
  {
    if |values| == 0 then Run([], Done)
    else
      var head := FileRun(values[0], f, fetch, outputPath, base);
      if head.outcome != Done then head
      else
        var rest := ProcessFiles(values[1..], f + 1, fetch, outputPath, base);
        CountAppendAll(head.events, rest.events);
        DownloadedPathsAppend(head.events, rest.events);
        assert forall k :: 1 <= k < |values| ==> values[k] == values[1..][k - 1];
        Run(head.events + rest.events, rest.outcome)
  }

  /** A list processed without an exception leaves exactly the file operations it calls for. */
  lemma {:induction false} ProcessFilesEvents(values: seq<Json>, f: nat, fetch: Json -> Json, outputPath: string, base: string)
    requires ProcessFiles(values, f, fetch, outputPath, base).outcome == Done
    ensures ProcessFiles(values, f, fetch, outputPath, base).events == FileEvents(values, f, fetch, outputPath, base)
    decreases |values|
  {
    if |values| > 0 {
      ProcessFilesStep(values, f, fetch, outputPath, base);
      ProcessFilesEvents(values[1..], f + 1, fetch, outputPath, base);
      FileEventsStep(values, f, fetch, outputPath, base);
    }
  }

  /** One entry got through: its operations, then those of the rest of the list. */
  lemma ProcessFilesStep(values: seq<Json>, f: nat, fetch: Json -> Json, outputPath: string, base: string)
    requires |values| > 0 && ProcessFiles(values, f, fetch, outputPath, base).outcome == Done
    ensures FileRun(values[0], f, fetch, outputPath, base).outcome == Done
    ensures ProcessFiles(values[1..], f + 1, fetch, outputPath, base).outcome == Done
    ensures ProcessFiles(values, f, fetch, outputPath, base).events
            == FileRun(values[0], f, fetch, outputPath, base).events + ProcessFiles(values[1..], f + 1, fetch, outputPath, base).events
  {
  }

  lemma FileEventsStep(values: seq<Json>, f: nat, fetch: Json -> Json, outputPath: string, base: string)
    requires |values| > 0 && AllOk(values, fetch)
    ensures AllOk(values[1..], fetch)
    ensures FileEvents(values, f, fetch, outputPath, base)
            == TranscriptionEvents(values[0], f, fetch, outputPath, base) + FileEvents(values[1..], f + 1, fetch, outputPath, base)
  {
    assert forall k :: 0 <= k < |values[1..]| ==> values[1..][k] == values[k + 1];
  }

  /** The first entry that does not get through ends the loop with its exception; the files
      of the entries before it stay written, and so does its own download when it got that
      far. */
  lemma {:induction false} ProcessFilesCrash(values: seq<Json>, f: nat, fetch: Json -> Json, outputPath: string,
                                             base: string, i: nat)
    requires i < |values| && !FileOk(values[i], fetch)
    requires AllOk(values[..i], fetch)
    ensures ProcessFiles(values, f, fetch, outputPath, base).outcome == FileRun(values[i], f + i, fetch, outputPath, base).outcome
    ensures ProcessFiles(values, f, fetch, outputPath, base).events
            == FileEvents(values[..i], f, fetch, outputPath, base) + FileRun(values[i], f + i, fetch, outputPath, base).events
    decreases i, 1
  {
    if i == 0 {
      ProcessFilesHeadCrash(values, f, fetch, outputPath, base);
      assert values[..0] == [];
    } else {
      CrashCons(values, f, fetch, outputPath, base, i);
    }
  }

  /** The step of `ProcessFilesCrash`: the entry in front of the rest adds its operations
      in front of the rest's. */
  lemma {:induction false} CrashCons(values: seq<Json>, f: nat, fetch: Json -> Json, outputPath: string,
                                     base: string, i: nat)
    requires 0 < i < |values| && !FileOk(values[i], fetch)
    requires AllOk(values[..i], fetch)
    ensures ProcessFiles(values, f, fetch, outputPath, base).outcome == FileRun(values[i], f + i, fetch, outputPath, base).outcome
    ensures ProcessFiles(values, f, fetch, outputPath, base).events
            == FileEvents(values[..i], f, fetch, outputPath, base) + FileRun(values[i], f + i, fetch, outputPath, base).events
    decreases i, 0
  {
    CrashShift(values, fetch, i);
    ProcessFilesCrash(values[1..], f + 1, fetch, outputPath, base, i - 1);
    assert f + 1 + (i - 1) == f + i;
    assert values[..i][0] == values[0];
    ProcessFilesHeadDone(values, f, fetch, outputPath, base);
    FileEventsStep(values[..i], f, fetch, outputPath, base);
    var head := TranscriptionEvents(values[0], f, fetch, outputPath, base);
    var done := FileEvents(values[1..][..i - 1], f + 1, fetch, outputPath, base);
    var last := FileRun(values[i], f + i, fetch, outputPath, base).events;
    AppendAssoc(head, done, last);
  }


  /** An entry that does not get through ends the loop at once, with its own events. */
  lemma ProcessFilesHeadCrash(values: seq<Json>, f: nat, fetch: Json -> Json, outputPath: string, base: string)
    requires |values| > 0 && !FileOk(values[0], fetch)
    ensures ProcessFiles(values, f, fetch, outputPath, base) == FileRun(values[0], f, fetch, outputPath, base)
  {
  }

  /** An entry that gets through is followed by the rest of the loop. */
  lemma ProcessFilesHeadDone(values: seq<Json>, f: nat, fetch: Json -> Json, outputPath: string, base: string)
    requires |values| > 0 && FileOk(values[0], fetch)
    ensures FileRun(values[0], f, fetch, outputPath, base).events == TranscriptionEvents(values[0], f, fetch, outputPath, base)
    ensures var rest := ProcessFiles(values[1..], f + 1, fetch, outputPath, base);
            ProcessFiles(values, f, fetch, outputPath, base)
            == Run(FileRun(values[0], f, fetch, outputPath, base).events + rest.events, rest.outcome)
  {
  }

  /** The first failing entry, seen from the second entry on. */
  lemma CrashShift(values: seq<Json>, fetch: Json -> Json, i: nat)
    requires 0 < i < |values| && AllOk(values[..i], fetch)
    ensures values[1..][i - 1] == values[i]
    ensures values[..i][1..] == values[1..][..i - 1]
    ensures AllOk(values[1..][..i - 1], fetch)
  {
    var prefix := values[..i];
    assert forall k :: 0 <= k < |prefix[1..]| ==> prefix[1..][k] == prefix[k + 1];
  }

  /** `get_transcription_files_response.get("values")` as the loop sees it: nothing to do
      for a falsy response or list; a list is iterated; iterating a string or a dict yields
      strings, whose missing `.get` raises AttributeError; a number or boolean is not
      iterable (TypeError). */
  function ListedFiles(listing: Response): (r: Result<seq<Json>, Raised>)
    ensures !TruthyResponse(listing) ==> r == Success([])
    ensures TruthyResponse(listing) ==>
              var values := Get(listing.value, "values", JNull);
              && (!Truthy(values) ==> r == Success([]))
              && (Truthy(values) && values.JArray? ==> r == Success(values.items))
              && (Truthy(values) && (values.JString? || values.JObject?) ==> r == Failure(AttributeError))
              && (Truthy(values) && (values.JNumber? || values.JBool?) ==> r == Failure(TypeError))
    ensures r.Failure? <==> TruthyResponse(listing) && Truthy(Get(listing.value, "values", JNull))
                            && !Get(listing.value, "values", JNull).JArray?
  {
    if !TruthyResponse(listing) then Success([])
    else
      var values := Get(listing.value, "values", JNull);
      if !Truthy(values) then Success([])
      else
        match values
        case JArray(items) => Success(items)
        case JString(_) => Failure(AttributeError)
        case JObject(_) => Failure(AttributeError)
        case _ => Failure(TypeError)
  }

  /** What follows the request for the file list: the list is read out of the response,
      and an exception there ends the run before any entry is processed; otherwise every
      entry goes through the loop body in order. */
  function ListingRun(listing: Response, fetch: Json -> Json, outputPath: string, base: string): (r: Run)
    ensures r.outcome != StillPolling
    ensures forall k :: k != DownloadKind && k != WriteKind ==> Count(r.events, k) == 0
    ensures ListedFiles(listing).Failure? ==> r == Run([], Crashed(ListedFiles(listing).error))
    ensures ListedFiles(listing).Success? ==> r == ProcessFiles(ListedFiles(listing).value, 0, fetch, outputPath, base)
  {
    match ListedFiles(listing)
    case Failure(e) => Run([], Crashed(e))
    case Success(values) => ProcessFiles(values, 0, fetch, outputPath, base)
  }

  /** Processing the fetched list ends without an exception exactly when the list is read
      and every entry gets through; it then leaves exactly the file operations the list
      calls for. */
  lemma ListingRunFiles(listing: Response, fetch: Json -> Json, outputPath: string, base: string)
    ensures ListingRun(listing, fetch, outputPath, base).outcome == Done <==>
              ListedFiles(listing).Success? && AllOk(ListedFiles(listing).value, fetch)
    ensures ListingRun(listing, fetch, outputPath, base).outcome == Done ==>
              ListingRun(listing, fetch, outputPath, base).events == FileEvents(ListedFiles(listing).value, 0, fetch, outputPath, base)
  {
    if ListedFiles(listing).Success? {
      assert ListingRun(listing, fetch, outputPath, base) == ProcessFiles(ListedFiles(listing).value, 0, fetch, outputPath, base);
    }
    if ListedFiles(listing).Success? && ListingRun(listing, fetch, outputPath, base).outcome == Done {
      ProcessFilesEvents(ListedFiles(listing).value, 0, fetch, outputPath, base);
    }
  }

  /** The `while not completed_flag` loop on the successive status responses `rs`.
      Every turn asks for the status once; a wait sleeps five seconds; success fetches the
      file list once and ends the loop; failure ends it with nothing fetched; anything else
      asks again at once. */
  function Poll(id: string, rs: seq<Response>, listing: Response, fetch: Json -> Json,
                outputPath: string, base: string): (r: Run)
    ensures r.outcome == StillPolling <==> FirstTerminal(rs).None?
    ensures Count(r.events, ListKind) == (if EndsWith(rs, ListFilesAndFinish) then 1 else 0)
    ensures EndsWith(rs, ListFilesAndFinish) ==> r.outcome == ListingRun(listing, fetch, outputPath, base).outcome
    decreases |rs|
  {
    if |rs| == 0 then Run([], StillPolling)
    else
      var poll := [PollStatus(id)];
      match Step(rs[0])
      case ListFilesAndFinish =>
        var files := ListingRun(listing, fetch, outputPath, base);
        CountAppend(poll + [ListFiles(id)], files.events, ListKind);
        Run(poll + [ListFiles(id)] + files.events, files.outcome)
      case FinishFailed =>
        Run(poll, Done)
      case WaitAndRetry =>
        var rest := Poll(id, rs[1..], listing, fetch, outputPath, base);
        CountAppend(poll + [Sleep(PollSeconds)], rest.events, ListKind);
        PollShift(rs);
        Run(poll + [Sleep(PollSeconds)] + rest.events, rest.outcome)
      case RetryAtOnce =>
        var rest := Poll(id, rs[1..], listing, fetch, outputPath, base);
        CountAppend(poll, rest.events, ListKind);
        PollShift(rs);
        Run(poll + rest.events, rest.outcome)
  }

  /** The turn that reads "Succeeded": a status request, the file-list request, then the
      processing of the list, whose outcome is the loop's. */
  lemma PollListUnfold(id: string, rs: seq<Response>, listing: Response, fetch: Json -> Json,
                       outputPath: string, base: string)
    requires |rs| > 0 && Step(rs[0]) == ListFilesAndFinish
    ensures var files := ListingRun(listing, fetch, outputPath, base);
            Poll(id, rs, listing, fetch, outputPath, base)
            == Run([PollStatus(id)] + [ListFiles(id)] + files.events, files.outcome)
  {
  }

  /** The turn that reads "Failed": a status request, and the loop is over. */
  lemma PollFailedUnfold(id: string, rs: seq<Response>, listing: Response, fetch: Json -> Json,
                         outputPath: string, base: string)
    requires |rs| > 0 && Step(rs[0]) == FinishFailed
    ensures Poll(id, rs, listing, fetch, outputPath, base) == Run([PollStatus(id)], Done)
  {
  }

  /** A waiting turn: a status request and a five-second sleep, then the rest of the loop. */
  lemma PollWaitUnfold(id: string, rs: seq<Response>, listing: Response, fetch: Json -> Json,
                       outputPath: string, base: string)
    requires |rs| > 0 && Step(rs[0]) == WaitAndRetry
    ensures var rest := Poll(id, rs[1..], listing, fetch, outputPath, base);
            Poll(id, rs, listing, fetch, outputPath, base)
            == Run([PollStatus(id)] + [Sleep(PollSeconds)] + rest.events, rest.outcome)
  {
  }

  /** Any other turn: a status request, then the rest of the loop at once. */
  lemma PollRetryUnfold(id: string, rs: seq<Response>, listing: Response, fetch: Json -> Json,
                        outputPath: string, base: string)
    requires |rs| > 0 && Step(rs[0]) == RetryAtOnce
    ensures var rest := Poll(id, rs[1..], listing, fetch, outputPath, base);
            Poll(id, rs, listing, fetch, outputPath, base) == Run([PollStatus(id)] + rest.events, rest.outcome)
  {
  }

  /** How the loop ends: on "Succeeded" as the processing of the list ends, on "Failed"
      without an exception. */
  lemma {:induction false} PollOutcome(id: string, rs: seq<Response>, listing: Response, fetch: Json -> Json,
                                       outputPath: string, base: string)
    ensures EndsWith(rs, ListFilesAndFinish) ==>
              Poll(id, rs, listing, fetch, outputPath, base).outcome == ListingRun(listing, fetch, outputPath, base).outcome
    ensures EndsWith(rs, FinishFailed) ==> Poll(id, rs, listing, fetch, outputPath, base).outcome == Done
  {
    if EndsWith(rs, FinishFailed) {
      PollFailed(id, rs, listing, fetch, outputPath, base);
    }
  }

  /** Every sleep among `events` lasts `seconds`. */
  predicate EverySleepLasts(events: seq<Event>, seconds: nat) {
    forall i :: 0 <= i < |events| && events[i].Sleep? ==> events[i].seconds == seconds
  }

  /** Events without a sleep have no sleep of any other length. */
  lemma {:induction false} NoSleepLasts(events: seq<Event>, seconds: nat)
    requires Count(events, SleepKind) == 0
    ensures EverySleepLasts(events, seconds)
    decreases |events|
  {
    if |events| > 0 {
      NoSleepLasts(events[1..], seconds);
      assert forall i :: 1 <= i < |events| ==> events[i] == events[1..][i - 1];
    }
  }

  lemma EverySleepLastsAppend(a: seq<Event>, b: seq<Event>, seconds: nat)
    requires EverySleepLasts(a, seconds) && EverySleepLasts(b, seconds)
    ensures EverySleepLasts(a + b, seconds)
  {
    assert forall i :: |a| <= i < |a + b| ==> (a + b)[i] == b[i - |a|];
  }

  /** Every sleep of the loop is the five seconds of a waiting turn. */
  lemma {:induction false} PollSleepLength(id: string, rs: seq<Response>, listing: Response, fetch: Json -> Json,
                                           outputPath: string, base: string)
    ensures EverySleepLasts(Poll(id, rs, listing, fetch, outputPath, base).events, PollSeconds)
    decreases |rs|
  {
    if |rs| > 0 {
      match Step(rs[0])
      case ListFilesAndFinish =>
        var files := ListingRun(listing, fetch, outputPath, base);
        PollListUnfold(id, rs, listing, fetch, outputPath, base);
        NoSleepLasts(files.events, PollSeconds);
        EverySleepLastsAppend([PollStatus(id)] + [ListFiles(id)], files.events, PollSeconds);
      case FinishFailed =>
        PollFailedUnfold(id, rs, listing, fetch, outputPath, base);
      case WaitAndRetry =>
        PollWaitUnfold(id, rs, listing, fetch, outputPath, base);
        PollSleepLength(id, rs[1..], listing, fetch, outputPath, base);
        EverySleepLastsAppend([PollStatus(id)] + [Sleep(PollSeconds)],
                              Poll(id, rs[1..], listing, fetch, outputPath, base).events, PollSeconds);
      case RetryAtOnce =>
        PollRetryUnfold(id, rs, listing, fetch, outputPath, base);
        PollSleepLength(id, rs[1..], listing, fetch, outputPath, base);
        EverySleepLastsAppend([PollStatus(id)], Poll(id, rs[1..], listing, fetch, outputPath, base).events, PollSeconds);
    }
  }

  /** A request or a sleep in front of some events adds no file operation. */
  lemma NoFileEffect(a: Event, rest: seq<Event>)
    requires !a.Download? && !a.WriteText?
    ensures FileEffects([a] + rest) == FileEffects(rest)
  {
    assert ([a] + rest)[1..] == rest;
  }

  /** The loop touches files only through the processing of the file list: on success the
      file operations are exactly those of that processing, and otherwise there are none. */
  lemma {:induction false} PollFileEffects(id: string, rs: seq<Response>, listing: Response, fetch: Json -> Json,
                                           outputPath: string, base: string)
    ensures FileEffects(Poll(id, rs, listing, fetch, outputPath, base).events)
            == if EndsWith(rs, ListFilesAndFinish) then FileEffects(ListingRun(listing, fetch, outputPath, base).events) else []
    decreases |rs|
  {
    if |rs| > 0 {
      match Step(rs[0])
      case ListFilesAndFinish =>
        PollListEffects(id, rs, listing, fetch, outputPath, base);
      case FinishFailed =>
        NoFileEffect(PollStatus(id), []);
      case WaitAndRetry =>
        PollWaitEffects(id, rs, listing, fetch, outputPath, base);
        PollShift(rs);
        PollFileEffects(id, rs[1..], listing, fetch, outputPath, base);
      case RetryAtOnce =>
        PollRetryEffects(id, rs, listing, fetch, outputPath, base);
        PollShift(rs);
        PollFileEffects(id, rs[1..], listing, fetch, outputPath, base);
    }
  }

  lemma PollListEffects(id: string, rs: seq<Response>, listing: Response, fetch: Json -> Json,
                        outputPath: string, base: string)
    requires |rs| > 0 && Step(rs[0]) == ListFilesAndFinish
    ensures FileEffects(Poll(id, rs, listing, fetch, outputPath, base).events)
            == FileEffects(ListingRun(listing, fetch, outputPath, base).events)
  {
    var files := ListingRun(listing, fetch, outputPath, base);
    PollListUnfold(id, rs, listing, fetch, outputPath, base);
    AppendAssoc([PollStatus(id)], [ListFiles(id)], files.events);
    NoFileEffect(PollStatus(id), [ListFiles(id)] + files.events);
    NoFileEffect(ListFiles(id), files.events);
  }

  lemma PollWaitEffects(id: string, rs: seq<Response>, listing: Response, fetch: Json -> Json,
                        outputPath: string, base: string)
    requires |rs| > 0 && Step(rs[0]) == WaitAndRetry
    ensures FileEffects(Poll(id, rs, listing, fetch, outputPath, base).events)
            == FileEffects(Poll(id, rs[1..], listing, fetch, outputPath, base).events)
  {
    var rest := Poll(id, rs[1..], listing, fetch, outputPath, base);
    PollWaitUnfold(id, rs, listing, fetch, outputPath, base);
    AppendAssoc([PollStatus(id)], [Sleep(PollSeconds)], rest.events);
    NoFileEffect(PollStatus(id), [Sleep(PollSeconds)] + rest.events);
    NoFileEffect(Sleep(PollSeconds), rest.events);
  }

  lemma PollRetryEffects(id: string, rs: seq<Response>, listing: Response, fetch: Json -> Json,
                         outputPath: string, base: string)
    requires |rs| > 0 && Step(rs[0]) == RetryAtOnce
    ensures FileEffects(Poll(id, rs, listing, fetch, outputPath, base).events)
            == FileEffects(Poll(id, rs[1..], listing, fetch, outputPath, base).events)
  {
    var rest := Poll(id, rs[1..], listing, fetch, outputPath, base);
    PollRetryUnfold(id, rs, listing, fetch, outputPath, base);
    NoFileEffect(PollStatus(id), rest.events);
  }

  /** One turn that does not end the loop: a status request, a sleep when asked to wait,
      then the rest of the loop. */
  lemma PollStepCount(id: string, rs: seq<Response>, listing: Response, fetch: Json -> Json,
                      outputPath: string, base: string, k: Kind)
    requires |rs| > 0 && !Terminal(Step(rs[0]))
    ensures var r, rest := Poll(id, rs, listing, fetch, outputPath, base), Poll(id, rs[1..], listing, fetch, outputPath, base);
            && r.outcome == rest.outcome
            && Count(r.events, k)
               == (if k == PollKind then 1 else 0) + (if k == SleepKind && Step(rs[0]) == WaitAndRetry then 1 else 0)
                  + Count(rest.events, k)
  {
    if Step(rs[0]) == WaitAndRetry {
      PollWaitCount(id, rs, listing, fetch, outputPath, base, k);
    } else {
      PollRetryCount(id, rs, listing, fetch, outputPath, base, k);
    }
  }

  lemma PollWaitCount(id: string, rs: seq<Response>, listing: Response, fetch: Json -> Json,
                      outputPath: string, base: string, k: Kind)
    requires |rs| > 0 && Step(rs[0]) == WaitAndRetry
    ensures var r, rest := Poll(id, rs, listing, fetch, outputPath, base), Poll(id, rs[1..], listing, fetch, outputPath, base);
            && r.outcome == rest.outcome
            && Count(r.events, k) == (if k == PollKind || k == SleepKind then 1 else 0) + Count(rest.events, k)
  {
    var rest := Poll(id, rs[1..], listing, fetch, outputPath, base);
    PollWaitUnfold(id, rs, listing, fetch, outputPath, base);
    CountAppend([PollStatus(id)] + [Sleep(PollSeconds)], rest.events, k);
    CountAppend([PollStatus(id)], [Sleep(PollSeconds)], k);
  }

  lemma PollRetryCount(id: string, rs: seq<Response>, listing: Response, fetch: Json -> Json,
                       outputPath: string, base: string, k: Kind)
    requires |rs| > 0 && Step(rs[0]) == RetryAtOnce
    ensures var r, rest := Poll(id, rs, listing, fetch, outputPath, base), Poll(id, rs[1..], listing, fetch, outputPath, base);
            && r.outcome == rest.outcome
            && Count(r.events, k) == (if k == PollKind then 1 else 0) + Count(rest.events, k)
  {
    var rest := Poll(id, rs[1..], listing, fetch, outputPath, base);
    PollRetryUnfold(id, rs, listing, fetch, outputPath, base);
    CountAppend([PollStatus(id)], rest.events, k);
  }

  /** The turn that reads "Succeeded": a status request, the file-list request, then the
      processing of the list. */
  lemma PollListCount(id: string, rs: seq<Response>, listing: Response, fetch: Json -> Json,
                      outputPath: string, base: string, k: Kind)
    requires |rs| > 0 && Step(rs[0]) == ListFilesAndFinish
    ensures var r, files := Poll(id, rs, listing, fetch, outputPath, base), ListingRun(listing, fetch, outputPath, base);
            && r.outcome == files.outcome
            && Count(r.events, k) == (if k == PollKind || k == ListKind then 1 else 0) + Count(files.events, k)
  {
    var files := ListingRun(listing, fetch, outputPath, base);
    PollListUnfold(id, rs, listing, fetch, outputPath, base);
    CountAppend([PollStatus(id)] + [ListFiles(id)], files.events, k);
    CountAppend([PollStatus(id)], [ListFiles(id)], k);
  }

  /** The loop asks for the status once for every response it reads: up to and including
      the first that ends it, or all of them. */
  lemma {:induction false} PollStatusCount(id: string, rs: seq<Response>, listing: Response, fetch: Json -> Json,
                                           outputPath: string, base: string)
    ensures Count(Poll(id, rs, listing, fetch, outputPath, base).events, PollKind) == PolledCount(rs)
    decreases |rs|
  {
    if |rs| > 0 {
      match Step(rs[0])
      case ListFilesAndFinish =>
        PollListCount(id, rs, listing, fetch, outputPath, base, PollKind);
      case FinishFailed =>
      case WaitAndRetry =>
        PollStatusCount(id, rs[1..], listing, fetch, outputPath, base);
        PollStepCount(id, rs, listing, fetch, outputPath, base, PollKind);
        PollShift(rs);
      case RetryAtOnce =>
        PollStatusCount(id, rs[1..], listing, fetch, outputPath, base);
        PollStepCount(id, rs, listing, fetch, outputPath, base, PollKind);
        PollShift(rs);
    }
  }

  /** The loop sleeps once for every "waiting" answer it reads. */
  lemma {:induction false} PollWaits(id: string, rs: seq<Response>, listing: Response, fetch: Json -> Json,
                                     outputPath: string, base: string)
    ensures PolledCount(rs) <= |rs|
    ensures Count(Poll(id, rs, listing, fetch, outputPath, base).events, SleepKind) == WaitCount(rs[..PolledCount(rs)])
    decreases |rs|
  {
    if |rs| > 0 {
      match Step(rs[0])
      case ListFilesAndFinish =>
        PollListCount(id, rs, listing, fetch, outputPath, base, SleepKind);
        assert rs[..PolledCount(rs)] == [rs[0]];
      case FinishFailed =>
        assert rs[..PolledCount(rs)] == [rs[0]];
      case WaitAndRetry =>
        PollWaits(id, rs[1..], listing, fetch, outputPath, base);
        PollStepCount(id, rs, listing, fetch, outputPath, base, SleepKind);
        PollShift(rs);
      case RetryAtOnce =>
        PollWaits(id, rs[1..], listing, fetch, outputPath, base);
        PollStepCount(id, rs, listing, fetch, outputPath, base, SleepKind);
        PollShift(rs);
    }
  }

  /** A job reported as failed ends the loop with nothing listed or downloaded. */
  lemma {:induction false} PollFailed(id: string, rs: seq<Response>, listing: Response, fetch: Json -> Json,
                                      outputPath: string, base: string)
    requires EndsWith(rs, FinishFailed)
    ensures var r := Poll(id, rs, listing, fetch, outputPath, base);
            r.outcome == Done && Count(r.events, DownloadKind) == 0
    decreases |rs|
  {
    if !Terminal(Step(rs[0])) {
      PollShift(rs);
      PollFailed(id, rs[1..], listing, fetch, outputPath, base);
      PollStepCount(id, rs, listing, fetch, outputPath, base, DownloadKind);
    }
  }

  /** After a response that does not end the loop, the loop goes on as on the rest. */
  lemma PollShift(rs: seq<Response>)
    requires |rs| > 0 && !Terminal(Step(rs[0]))
    ensures PolledCount(rs) == 1 + PolledCount(rs[1..])
    ensures PolledCount(rs) <= |rs|
    ensures WaitCount(rs[..PolledCount(rs)])
            == (if Step(rs[0]) == WaitAndRetry then 1 else 0) + WaitCount(rs[1..][..PolledCount(rs[1..])])
    ensures EndsWith(rs, ListFilesAndFinish) == EndsWith(rs[1..], ListFilesAndFinish)
    ensures EndsWith(rs, FinishFailed) == EndsWith(rs[1..], FinishFailed)
  {
    var n := PolledCount(rs);
    assert rs[..n][1..] == rs[1..][..n - 1];
  }

  /** The entries the loop completes downloading are exactly the transcriptions: when no
      entry raises, the path for position `g` is downloaded iff the entry at `g` is a
      transcription (the script numbers the entries from `f` = 0). */
  lemma DownloadsAreTranscriptions(values: seq<Json>, f: nat, fetch: Json -> Json, outputPath: string, base: string, g: nat)
    requires ProcessFiles(values, f, fetch, outputPath, base).outcome == Done
    ensures JsonPath(outputPath, g, base) in DownloadedPaths(ProcessFiles(values, f, fetch, outputPath, base).events)
            <==> f <= g < f + |values| && IsTranscription(values[g - f])
  {
    TranscriptionPathsExact(values, f, outputPath, base, g);
  }

  /** Where the list of models is saved, named after the region of the service URL. */
  function ModelsListPath(outputPath: string): (p: string)
    ensures p == Paths.JoinPath(outputPath, "speech_to_text_models_" + "australiaeast" + ".json")
  {
    ConfiguredRegion();
    Paths.JoinPath(outputPath, "speech_to_text_models_" + Region(ApiUrl).value + ".json")
  }

  /** The selected file has an extension and the submission response yields an id. */
  ghost predicate Submitted(audioPath: string, submission: Response) {
    Paths.HasExtension(Paths.Basename(audioPath)) && SubmissionId(submission).Success?
  }

  /** The script from taking the extension of the selected file to the end of the loop,
      given the submission response, the status responses in order, the file list and the
      documents behind the content URLs. The extension raises IndexError first; a 'self'
      link that is not a string raises AttributeError; without a non-empty id nothing is
      polled; otherwise the loop runs with the file name of the audio in every path. */
  function BaseSpeechRun(audioPath: string, submission: Response, rs: seq<Response>, listing: Response,
                         fetch: Json -> Json, outputPath: string): (r: Run)
    ensures !Paths.HasExtension(Paths.Basename(audioPath)) ==> r == Run([], Crashed(IndexError))
    ensures (Paths.HasExtension(Paths.Basename(audioPath)) && SubmissionId(submission).Failure?) ==>
              r == Run([], Crashed(AttributeError))
    ensures (Submitted(audioPath, submission) && !StartsPolling(SubmissionId(submission).value)) ==>
              r == Run([], Done)
    ensures Count(r.events, PollKind)
            == (if Submitted(audioPath, submission) && StartsPolling(SubmissionId(submission).value) then PolledCount(rs) else 0)
    ensures (Submitted(audioPath, submission) && StartsPolling(SubmissionId(submission).value)) ==>
              && (r.outcome == StillPolling <==> FirstTerminal(rs).None?)
              && Count(r.events, ListKind) == (if EndsWith(rs, ListFilesAndFinish) then 1 else 0)
              && Count(r.events, SleepKind) == WaitCount(rs[..PolledCount(rs)])
              && (EndsWith(rs, ListFilesAndFinish) ==>
                    r.outcome == ListingRun(listing, fetch, outputPath, Paths.Basename(audioPath)).outcome)
              && (EndsWith(rs, FinishFailed) ==> r.outcome == Done)
              && FileEffects(r.events)
                 == if EndsWith(rs, ListFilesAndFinish)
                    then FileEffects(ListingRun(listing, fetch, outputPath, Paths.Basename(audioPath)).events) else []
    ensures EverySleepLasts(r.events, PollSeconds)
  {
    match Paths.Extension(audioPath)
    case Failure(e) => Run([], Crashed(e))
    case Success(_) =>
      match SubmissionId(submission)
      case Failure(e) => Run([], Crashed(e))
      case Success(id) =>
        if StartsPolling(id) then
          PollStatusCount(id.value, rs, listing, fetch, outputPath, Paths.Basename(audioPath));
          PollWaits(id.value, rs, listing, fetch, outputPath, Paths.Basename(audioPath));
          PollFileEffects(id.value, rs, listing, fetch, outputPath, Paths.Basename(audioPath));
          PollOutcome(id.value, rs, listing, fetch, outputPath, Paths.Basename(audioPath));
          PollSleepLength(id.value, rs, listing, fetch, outputPath, Paths.Basename(audioPath));
          Poll(id.value, rs, listing, fetch, outputPath, Paths.Basename(audioPath))
        else Run([], Done)
  }

  /** A job that succeeds, with a file list that is processed without an exception, leaves
      exactly the downloads and text files the list calls for: for each transcription entry
      in list order, its content URL saved under the JSON name of its position and its
      display text saved under the text name of that position. */
  lemma SucceededRunFiles(audioPath: string, submission: Response, rs: seq<Response>, listing: Response,
                          fetch: Json -> Json, outputPath: string)
    requires Submitted(audioPath, submission) && StartsPolling(SubmissionId(submission).value)
    requires EndsWith(rs, ListFilesAndFinish)
    requires ListingRun(listing, fetch, outputPath, Paths.Basename(audioPath)).outcome == Done
    ensures FileEffects(BaseSpeechRun(audioPath, submission, rs, listing, fetch, outputPath).events)
            == FileEvents(ListedFiles(listing).value, 0, fetch, outputPath, Paths.Basename(audioPath))
  {
    ListingRunFiles(listing, fetch, outputPath, Paths.Basename(audioPath));
    FileEffectsOfFileEvents(ListedFiles(listing).value, 0, fetch, outputPath, Paths.Basename(audioPath));
  }
}

=== FILE: chunking.dfy ===
/** The time-based audio chunker `split_audio` of utils.py. Decoded audio is a sequence
    with one element per millisecond, which is the unit of pydub's `len()` and slicing. */
module Chunking {
  import opened Wrappers
  import opened Errors

  /** A decoded pydub `AudioSegment`: frame rate, channel count and its milliseconds. */
  datatype AudioSegment<T> = AudioSegment(frameRate: nat, channels: nat, frames: seq<T>) {

    /** `len(audio)`: the duration in milliseconds. */
    function Duration(): nat {
      |frames|
    }

    /** `audio[lo:hi]`: the milliseconds from `lo` up to `hi`, the end clamped to the
        duration; frame rate and channel count are kept. */
    function Slice(lo: nat, hi: nat): AudioSegment<T>
      requires lo <= hi
    {
      AudioSegment(frameRate, channels, frames[Min(lo, |frames|)..Min(hi, |frames|)])
    }
  }

  function Min(a: int, b: int): int {
    if a <= b then a else b
  }

  /** `chunk_length * 1000`: the chunk length in milliseconds. */
  function ChunkMs(chunkLength: int): int {
    chunkLength * 1000
  }

  /** The ceiling of `d / l`. */
  function CeilDiv(d: nat, l: nat): nat
    requires l > 0
  {
    (d + l - 1) / l
  }

  /** The window of index `k`: milliseconds [k*lms, (k+1)*lms) clamped to the duration. */
  function Window<T>(audio: AudioSegment<T>, lms: nat, k: nat): AudioSegment<T> {
    audio.Slice(k * lms, k * lms + lms)
  }

  /** The loop `for i in range(0, len(audio), lms)`, whose `j`-th value is `j * lms`:
      one window per start offset below the duration, from window `j` on. */
  function WindowsFrom<T>(audio: AudioSegment<T>, lms: nat, j: nat): seq<AudioSegment<T>>
    requires lms > 0
    decreases audio.Duration() + lms - j * lms
  {
    if j * lms >= audio.Duration() then []
    else [Window(audio, lms, j)] + WindowsFrom(audio, lms, j + 1)
  }

  /** The milliseconds of a list of chunks, played one after the other. */
  function Flatten<T>(chunks: seq<AudioSegment<T>>): seq<T>
    decreases |chunks|
  {
    if |chunks| == 0 then [] else chunks[0].frames + Flatten(chunks[1..])
  }

  /** `split_audio(file, chunk_length)` once the file is decoded into `audio`.
      Audio no longer than one chunk comes back whole (even when it is empty); longer audio
      is cut into consecutive windows starting at 0, the last one possibly shorter.
      A zero chunk length reaches `range()` with step 0 (ValueError) unless the audio is
      empty; a negative one gives an empty range and so no chunks. */
  function SplitAudio<T>(audio: AudioSegment<T>, chunkLength: int): (r: Result<seq<AudioSegment<T>>, Raised>)
    ensures r.Failure? <==> chunkLength == 0 && audio.Duration() > 0
    ensures r.Failure? ==> r.error == ValueError
    ensures audio.Duration() <= ChunkMs(chunkLength) ==> r == Success([audio])
    ensures chunkLength < 0 ==> r == Success([])
    ensures r.Success? && chunkLength >= 0 ==> Flatten(r.value) == audio.frames
    ensures r.Success? ==> forall k :: 0 <= k < |r.value| ==>
              r.value[k].frameRate == audio.frameRate && r.value[k].channels == audio.channels
    ensures chunkLength > 0 && audio.Duration() > ChunkMs(chunkLength) ==>
              && r.Success?
              && |r.value| == CeilDiv(audio.Duration(), ChunkMs(chunkLength))
              && forall k :: 0 <= k < |r.value| ==> r.value[k] == Window(audio, ChunkMs(chunkLength), k)
  {
    var lms := ChunkMs(chunkLength);
    if audio.Duration() <= lms then
      assert Flatten([audio]) == audio.frames;
      Success([audio])
    else if lms == 0 then Failure(ValueError)
    else if lms < 0 then Success([])
    else
      WindowsFromCount(audio, lms, 0);
      WindowsFromContents(audio, lms, 0);
      WindowsFromCover(audio, lms, 0);
      Success(WindowsFrom(audio, lms, 0))
  }

  /** `j * lms` is below `d` exactly when `j` is below the ceiling of `d / lms`. */
  lemma BelowCeiling(d: nat, lms: nat, j: nat)
    requires lms > 0
    ensures j * lms < d <==> j < CeilDiv(d, lms)
  {
    var q := CeilDiv(d, lms);
    var rem := (d + lms - 1) % lms;
    assert d + lms - 1 == q * lms + rem;
    if j < q {
      MulMonotone(j + 1, q, lms);
    } else {
      MulMonotone(q, j, lms);
    }
  }

  lemma MulMonotone(a: nat, b: nat, c: nat)
    requires a <= b
    ensures a * c <= b * c
  {
  }

  /** From window `j` on there are as many windows as the ceiling leaves. */
  lemma {:induction false} WindowsFromCount<T>(audio: AudioSegment<T>, lms: nat, j: nat)
    requires lms > 0 && j <= CeilDiv(audio.Duration(), lms)
    ensures |WindowsFrom(audio, lms, j)| == CeilDiv(audio.Duration(), lms) - j
    decreases audio.Duration() + lms - j * lms
  {
    BelowCeiling(audio.Duration(), lms, j);
    if j * lms < audio.Duration() {
      WindowsFromCount(audio, lms, j + 1);
    }
  }

  /** The `k`-th window emitted from window `j` on is window `j + k`. */
  lemma {:induction false} WindowsFromContents<T>(audio: AudioSegment<T>, lms: nat, j: nat)
    requires lms > 0
    ensures forall k :: 0 <= k < |WindowsFrom(audio, lms, j)| ==> WindowsFrom(audio, lms, j)[k] == Window(audio, lms, j + k)
    decreases audio.Duration() + lms - j * lms
  {
    if j * lms < audio.Duration() {
      WindowsFromContents(audio, lms, j + 1);
    }
  }

  /** The windows from `j` on cover the audio from millisecond `j * lms` to the end. */
  lemma {:induction false} WindowsFromCover<T>(audio: AudioSegment<T>, lms: nat, j: nat)
    requires lms > 0
    ensures Flatten(WindowsFrom(audio, lms, j)) == audio.frames[Min(j * lms, audio.Duration())..]
    decreases audio.Duration() + lms - j * lms
  {
    var ws := WindowsFrom(audio, lms, j);
    var lo := j * lms;
    if lo < audio.Duration() {
      var mid := Min(lo + lms, audio.Duration());
      WindowsFromCover(audio, lms, j + 1);
      assert (j + 1) * lms == lo + lms;
      assert ws[1..] == WindowsFrom(audio, lms, j + 1);
      assert Flatten(ws[1..]) == audio.frames[mid..];
      assert ws[0].frames == audio.frames[lo..mid];
      assert Flatten(ws) == ws[0].frames + Flatten(ws[1..]);
      SliceSplit(audio.frames, lo, mid);
    }
  }

  lemma SliceSplit<T>(s: seq<T>, lo: nat, mid: nat)
    requires lo <= mid <= |s|
    ensures s[lo..] == s[lo..mid] + s[mid..]
  {
  }

  /** The durations of the chunks of long audio: all of them non-empty and at most one
      chunk length; all but the last exactly one chunk length; the last one the rest. */
  lemma ChunkDurations<T>(audio: AudioSegment<T>, chunkLength: int)
    requires chunkLength > 0 && audio.Duration() > ChunkMs(chunkLength)
    ensures var chunks := SplitAudio(audio, chunkLength).value;
            var lms, n := ChunkMs(chunkLength), |chunks|;
            && n >= 2
            && (forall k :: 0 <= k < n ==> 0 < chunks[k].Duration() <= lms)
            && (forall k :: 0 <= k < n - 1 ==> chunks[k].Duration() == lms)
            && chunks[n - 1].Duration() == audio.Duration() - (n - 1) * lms
  {
    var chunks := SplitAudio(audio, chunkLength).value;
    var lms, n, d := ChunkMs(chunkLength), |chunks|, audio.Duration();
    BelowCeiling(d, lms, 1);
    forall k | 0 <= k < n
      ensures 0 < chunks[k].Duration() <= lms
      ensures k < n - 1 ==> chunks[k].Duration() == lms
      ensures k == n - 1 ==> chunks[k].Duration() == d - k * lms
    {
      BelowCeiling(d, lms, k);
      BelowCeiling(d, lms, k + 1);
      assert (k + 1) * lms == k * lms + lms;
    }
  }

  /** A 65-second recording cut into 30-second chunks gives chunks of 30 s, 30 s and 5 s. */
  lemma SixtyFiveSecondsInThirtySecondChunks<T>(audio: AudioSegment<T>)
    requires audio.Duration() == 65000
    ensures var chunks := SplitAudio(audio, 30).value;
            && |chunks| == 3
            && chunks[0].Duration() == 30000
            && chunks[1].Duration() == 30000
            && chunks[2].Duration() == 5000
  {
    ChunkDurations(audio, 30);
  }
}

=== FILE: decimal.dfy ===
/** Decimal rendering of natural numbers, as Python's `str()` and f-strings print an `int`. */
module Decimal {

  predicate IsDigit(c: char) {
    '0' <= c <= '9'
  }

  predicate AllDigits(s: string) {
    forall i :: 0 <= i < |s| ==> IsDigit(s[i])
  }

  /** A numeral as `str()` prints a natural number: digits, and no leading zero unless the
      numeral is "0" itself. */
  predicate IsNumeral(s: string) {
    |s| > 0 && AllDigits(s) && (s[0] == '0' ==> |s| == 1)
  }

  function DigitChar(d: nat): (c: char)
    requires d < 10
    ensures IsDigit(c)
  {
    (('0' as int) + d) as char
  }

  function DigitValue(c: char): (d: nat)
    requires IsDigit(c)
    ensures d < 10 && DigitChar(d) == c
  {
    (c as int) - ('0' as int)
  }

  /** The decimal numeral of `n`: digits only, most significant first, no leading zero. */
  function FromNat(n: nat): (s: string)
    ensures |s| > 0 && AllDigits(s)
    ensures s[0] == '0' <==> n == 0
    ensures IsNumeral(s)
    decreases n
  {
    if n < 10 then [DigitChar(n)] else FromNat(n / 10) + [DigitChar(n % 10)]
  }

  /** The value of a numeral. */
  function ToNat(s: string): nat
    requires AllDigits(s)
    decreases |s|
  {
    if |s| == 0 then 0 else ToNat(s[..|s| - 1]) * 10 + DigitValue(s[|s| - 1])
  }

  /** Reading back a rendered number gives the number. */
  lemma {:induction false} ToNatFromNat(n: nat)
    ensures ToNat(FromNat(n)) == n
    decreases n
  {
    if n >= 10 {
      var s := FromNat(n);
      assert s[..|s| - 1] == FromNat(n / 10);
      ToNatFromNat(n / 10);
    }
  }

  /** A numeral followed by a non-digit separator can be cut apart again:
      equal texts of that shape have equal numbers and equal tails. */
  lemma FromNatDelimited(a: nat, b: nat, sep: char, x: string, y: string)
    requires !IsDigit(sep)
    requires FromNat(a) + [sep] + x == FromNat(b) + [sep] + y
    ensures a == b && x == y
  {
    var sa, sb := FromNat(a), FromNat(b);
    var whole := sa + [sep] + x;
    SeparatorPosition(sa, sep, x);
    SeparatorPosition(sb, sep, y);
    assert |sa| == |sb|;
    assert sa == whole[..|sa|] == sb;
    assert x == whole[|sa| + 1..] == y;
    ToNatFromNat(a);
    ToNatFromNat(b);
  }

  /** In a numeral followed by a separator, the separator is the first non-digit. */
  lemma SeparatorPosition(s: string, sep: char, x: string)
    requires AllDigits(s) && !IsDigit(sep)
    ensures forall k :: 0 <= k < |s| ==> IsDigit((s + [sep] + x)[k])
    ensures !IsDigit((s + [sep] + x)[|s|])
  {
  }

  /** A numeral is the rendering of its value: `str()` has one numeral per number. */
  lemma {:induction false} FromNatToNat(s: string)
    requires IsNumeral(s)
    ensures FromNat(ToNat(s)) == s
    decreases |s|
  {
    if |s| > 1 {
      var front, last := s[..|s| - 1], s[|s| - 1];
      assert front[0] == s[0];
      FromNatToNat(front);
      ToNatPositive(front);
      var n := ToNat(s);
      assert n == ToNat(front) * 10 + DigitValue(last);
      assert n / 10 == ToNat(front) && n % 10 == DigitValue(last);
      assert s == front + [last];
    }
  }

  /** A numeral that does not start with '0' has a positive value. */
  lemma {:induction false} ToNatPositive(s: string)
    requires |s| > 0 && AllDigits(s) && s[0] != '0'
    ensures ToNat(s) > 0
    decreases |s|
  {
    if |s| > 1 {
      assert s[..|s| - 1][0] == s[0];
      ToNatPositive(s[..|s| - 1]);
    }
  }
}

=== FILE: export.dfy ===
/** `export_chunk_to_base64` of utils.py. The codec behind `chunk.export` is a parameter:
    a deterministic function from a chunk and its export options to the encoded bytes. */
module AudioExport {
  import opened Wrappers
  import opened Chunking
  import Base64
  import Decimal

  /** The extra codec settings passed when the chunk is also written to a file. */
  datatype CodecParams = CodecParams(bitrate: string, parameters: seq<string>)

  /** The keyword arguments of one `chunk.export` call besides its target. */
  datatype ExportOptions = ExportOptions(format: string, params: Option<CodecParams>)

  /** A file written with the given bytes. */
  datatype FileWrite = FileWrite(path: string, bytes: seq<Base64.Byte>)

  /** What one call leaves behind: the optional temporary file, and the returned string. */
  datatype Exported = Exported(tempFile: Option<FileWrite>, encoded: string)

  /** `chunk.export(fileobj, format=..., ...)`: the bytes the codec produces. */
  type Codec<!T> = (AudioSegment<T>, ExportOptions) -> seq<Base64.Byte>

  /** The settings derived from the chunk for the temporary file: the bitrate is the frame
      rate in thousands followed by "k", then `-ar <frame rate> -ac <channels>`, every number
      written as `str()` writes it. */
  function TempFileParams<T>(chunk: AudioSegment<T>): (p: CodecParams)
    ensures |p.bitrate| >= 2 && p.bitrate[|p.bitrate| - 1] == 'k'
    ensures Decimal.IsNumeral(p.bitrate[..|p.bitrate| - 1])
    ensures Decimal.ToNat(p.bitrate[..|p.bitrate| - 1]) == chunk.frameRate / 1000
    ensures |p.parameters| == 4 && p.parameters[0] == "-ar" && p.parameters[2] == "-ac"
    ensures Decimal.IsNumeral(p.parameters[1]) && Decimal.ToNat(p.parameters[1]) == chunk.frameRate
    ensures Decimal.IsNumeral(p.parameters[3]) && Decimal.ToNat(p.parameters[3]) == chunk.channels
  {
    var kilo := Decimal.FromNat(chunk.frameRate / 1000);
    Decimal.ToNatFromNat(chunk.frameRate / 1000);
    Decimal.ToNatFromNat(chunk.frameRate);
    Decimal.ToNatFromNat(chunk.channels);
    assert (kilo + "k")[..|kilo + "k"| - 1] == kilo;
    CodecParams(kilo + "k", ["-ar", Decimal.FromNat(chunk.frameRate), "-ac", Decimal.FromNat(chunk.channels)])
  }

  /** The bytes of the in-memory export, the only export the returned string comes from. */
  function BufferBytes<T>(codec: Codec<T>, chunk: AudioSegment<T>, fileFormat: string): seq<Base64.Byte> {
    codec(chunk, ExportOptions(fileFormat, None))
  }

  /** `export_chunk_to_base64(chunk, file_format, temp_file_path)`. A non-empty temporary
      path first receives an export with the derived codec settings; the result is always
      the base64 text of a second, plain export into memory. */
  function ExportChunkToBase64<T>(codec: Codec<T>, chunk: AudioSegment<T>, fileFormat: string,
                                  tempFilePath: Option<string>): (r: Exported)
    ensures Base64.Decode(r.encoded) == Success(BufferBytes(codec, chunk, fileFormat))
    ensures |r.encoded| == 4 * ((|BufferBytes(codec, chunk, fileFormat)| + 2) / 3)
    ensures forall i :: 0 <= i < |r.encoded| - Base64.PadCount(|BufferBytes(codec, chunk, fileFormat)|) ==>
              Base64.IsAlphabetChar(r.encoded[i])
    ensures forall i :: |r.encoded| - Base64.PadCount(|BufferBytes(codec, chunk, fileFormat)|) <= i < |r.encoded| ==>
              r.encoded[i] == Base64.PadChar
    ensures r.tempFile.Some? <==> tempFilePath.Some? && tempFilePath.value != ""
    ensures r.tempFile.Some? ==> r.tempFile.value.path == tempFilePath.value
    ensures r.tempFile.Some? ==>
              r.tempFile.value.bytes == codec(chunk, ExportOptions(fileFormat, Some(TempFileParams(chunk))))
  {
    var tempFile :=
      if tempFilePath.Some? && tempFilePath.value != "" then
        Some(FileWrite(tempFilePath.value, codec(chunk, ExportOptions(fileFormat, Some(TempFileParams(chunk))))))
      else None;
    var data := BufferBytes(codec, chunk, fileFormat);
    Base64.EncodedShape(data);
    Base64.DecodeEncode(data);
    Exported(tempFile, Base64.Encode(data))
  }

  /** The returned string does not depend on the temporary path: it is the unique text that
      decodes to the in-memory export. */
  lemma {:induction false} EncodedIgnoresTempPath<T>(codec: Codec<T>, chunk: AudioSegment<T>, fileFormat: string,
                                                    p: Option<string>, q: Option<string>)
    ensures ExportChunkToBase64(codec, chunk, fileFormat, p).encoded
         == ExportChunkToBase64(codec, chunk, fileFormat, q).encoded
         == Base64.Encode(BufferBytes(codec, chunk, fileFormat))
  {
    Base64.EncodeDecode(ExportChunkToBase64(codec, chunk, fileFormat, p).encoded);
    Base64.EncodeDecode(ExportChunkToBase64(codec, chunk, fileFormat, q).encoded);
  }
}

=== FILE: json.dfy ===
/** Parsed JSON values as the scripts receive them from the REST helpers and `json.load`,
    with the Python operations applied to them: truthiness and `dict.get`. */
module JsonValues {
  import opened Wrappers

  /** A JSON document. Numbers are integers; objects have string keys. */
  datatype Json =
    | JNull
    | JBool(b: bool)
    | JNumber(n: int)
    | JString(s: string)
    | JArray(items: seq<Json>)
    | JObject(fields: map<string, Json>)

  /** A response of one of the REST helpers: the parsed body, or None. */
  type Response = Option<map<string, Json>>

  /** Python truthiness: None, False, 0 and empty strings, lists and dicts are false. */
  predicate Truthy(j: Json) {
    match j
    case JNull => false
    case JBool(b) => b
    case JNumber(n) => n != 0
    case JString(s) => |s| > 0
    case JArray(items) => |items| > 0
    case JObject(fields) => |fields| > 0
  }

  /** Truthiness of a response: None and the empty dict are false. */
  predicate TruthyResponse(resp: Response) {
    resp.Some? && |resp.value| > 0
  }

  /** `d.get(key, default)`: the stored value, which may itself be null, or the default
      when the key is absent. */
  function Get(d: map<string, Json>, key: string, default: Json): Json {
    if key in d then d[key] else default
  }
}

=== FILE: paths.dfy ===
/** POSIX path helpers of `os.path` used by the scripts, and the extension extraction
    `os.path.splitext(path)[1].split('.')[1]` of 02_4o_audio.py and 04_base_speech.py. */
module Paths {
  import opened Wrappers
  import opened Errors
  import Strings

  /** `s.rfind(c)`: the index of the last `c`, or -1 when there is none. */
  function LastIndexOf(s: string, c: char): (i: int)
    ensures -1 <= i < |s|
    ensures i >= 0 ==> s[i] == c
    ensures forall j :: i < j < |s| ==> s[j] != c
    decreases |s|
  {
    if |s| == 0 then -1
    else if s[|s| - 1] == c then |s| - 1
    else LastIndexOf(s[..|s| - 1], c)
  }

  /** `os.path.basename`: everything after the last '/'. */
  function Basename(p: string): (b: string)
    ensures |b| <= |p| && p[|p| - |b|..] == b
    ensures '/' !in b
    ensures |b| < |p| ==> p[|p| - |b| - 1] == '/'
  {
    p[LastIndexOf(p, '/') + 1..]
  }

  /** The file name has an extension in the sense of `splitext`: some dot comes after a
      character that is not a dot (leading dots, as in ".profile", do not start one). */
  ghost predicate HasExtension(name: string) {
    exists i, j :: 0 <= i < j < |name| && name[i] != '.' && name[j] == '.'
  }

  /** `os.path.splitext` on POSIX: the extension runs from the last dot of the file
      name, provided a non-dot character precedes that dot within the file name. */
  function SplitExt(p: string): (r: (string, string))
    ensures r.0 + r.1 == p
    ensures r.1 != "" <==> HasExtension(Basename(p))
    ensures r.1 != "" ==> r.1[0] == '.' && '.' !in r.1[1..] && '/' !in r.1
  {
    var sepIndex := LastIndexOf(p, '/');
    var dotIndex := LastIndexOf(p, '.');
    ExtensionCondition(p, sepIndex, dotIndex);
    var hasExt := dotIndex > sepIndex && exists k :: sepIndex < k < dotIndex && p[k] != '.';
    if hasExt then
      ExtensionTail(p, sepIndex, dotIndex);
      (p[..dotIndex], p[dotIndex..])
    else
      (p, "")
  }

  /** Cutting at the last dot, when it follows the last '/', leaves a tail that starts
      with that dot and holds no other dot and no '/'. */
  lemma ExtensionTail(p: string, sepIndex: int, dotIndex: int)
    requires sepIndex == LastIndexOf(p, '/') && dotIndex == LastIndexOf(p, '.')
    requires dotIndex > sepIndex
    ensures p[..dotIndex] + p[dotIndex..] == p
    ensures p[dotIndex..] != "" && p[dotIndex..][0] == '.'
    ensures '.' !in p[dotIndex..][1..] && '/' !in p[dotIndex..]
  {
    var tail := p[dotIndex..];
    assert forall j :: 0 <= j < |tail| ==> tail[j] == p[dotIndex + j];
    assert forall j :: 1 <= j < |tail| ==> tail[1..][j - 1] == tail[j];
  }

  /** The test `splitext` performs on the whole path is the extension test on the file name. */
  lemma ExtensionCondition(p: string, sepIndex: int, dotIndex: int)
    requires sepIndex == LastIndexOf(p, '/') && dotIndex == LastIndexOf(p, '.')
    ensures (dotIndex > sepIndex && exists k :: sepIndex < k < dotIndex && p[k] != '.')
            <==> HasExtension(Basename(p))
  {
    var name := Basename(p);
    assert name == p[sepIndex + 1..];
    if dotIndex > sepIndex && exists k :: sepIndex < k < dotIndex && p[k] != '.' {
      var k :| sepIndex < k < dotIndex && p[k] != '.';
      assert name[k - sepIndex - 1] == p[k] && name[dotIndex - sepIndex - 1] == p[dotIndex];
    }
    if HasExtension(name) {
      var i, j :| 0 <= i < j < |name| && name[i] != '.' && name[j] == '.';
      assert p[sepIndex + 1 + j] == '.' && p[sepIndex + 1 + i] != '.';
    }
  }

  /** `os.path.splitext(path)[1].split('.')[1]`: the text after the final dot of the file
      name. Without an extension `splitext` yields '' and the subscript raises IndexError. */
  function Extension(path: string): (r: Result<string, Raised>)
    ensures r.Failure? <==> !HasExtension(Basename(path))
    ensures r.Failure? ==> r.error == IndexError
    ensures r.Success? ==> '.' !in r.value && '/' !in r.value
    ensures r.Success? ==> |r.value| < |path| && path[|path| - |r.value| - 1..] == "." + r.value
  {
    var ext := SplitExt(path).1;
    var parts := Strings.Split(ext, ".");
    ExtensionParts(ext);
    if |parts| < 2 then Failure(IndexError)
    else
      DotSuffix(path, SplitExt(path).0, ext);
      Success(parts[1])
  }

  /** A non-empty extension starting with '.' ends the path it was cut from. */
  lemma DotSuffix(path: string, front: string, ext: string)
    requires front + ext == path && |ext| > 0 && ext[0] == '.'
    ensures |ext[1..]| < |path| && path[|path| - |ext[1..]| - 1..] == "." + ext[1..]
  {
    assert path[|front|..] == ext;
    assert ext == "." + ext[1..];
  }

  /** A `splitext` extension ".e" splits on '.' into exactly "" and "e"; the empty
      extension splits into "" alone. */
  lemma ExtensionParts(ext: string)
    requires ext == "" || (ext[0] == '.' && '.' !in ext[1..])
    ensures ext == "" ==> Strings.Split(ext, ".") == [""]
    ensures ext != "" ==> Strings.Split(ext, ".") == ["", ext[1..]]
  {
    if ext == "" {
      assert Strings.Find(ext, ".") == None;
    } else {
      assert Strings.OccursAt(ext, ".", 0);
      assert Strings.Find(ext, ".") == Some(0);
      Strings.SplitAtFirst(ext, ".", 0);
      Strings.SplitWithoutSeparator(ext[1..], '.');
    }
  }

  /** The file name after the last '/' is read back from a path built as `dir/name`. */
  lemma BasenameOfJoin(dir: string, name: string)
    requires '/' !in name
    ensures Basename(dir + "/" + name) == name
  {
    var p := dir + "/" + name;
    assert p[|dir|] == '/';
    assert forall k :: |dir| < k < |p| ==> p[k] == name[k - |dir| - 1];
    assert LastIndexOf(p, '/') == |dir|;
    assert p[|dir| + 1..] == name;
  }

  /** A path `dir/stem.ext`, whose stem does not start with a dot, has extension `ext`. */
  lemma ExtensionOfPath(dir: string, stem: string, ext: string)
    requires |stem| > 0 && stem[0] != '.' && '/' !in stem
    requires '/' !in ext && '.' !in ext
    ensures Extension(dir + "/" + stem + "." + ext) == Success(ext)
  {
    var p := dir + "/" + stem + "." + ext;
    var name := stem + "." + ext;
    assert p == dir + "/" + name;
    BasenameOfJoin(dir, name);
    assert HasExtension(name) by {
      assert name[0] != '.' && name[|stem|] == '.';
    }
    assert Extension(p).Success?;
    DotTail(dir + "/" + stem, ext);
    ExtensionIsTail(p, ext);
    assert Extension(p) == Success(ext);
    assert p == dir + "/" + stem + "." + ext;
  }

  lemma DotTail(front: string, ext: string)
    ensures (front + "." + ext)[|front|..] == "." + ext
  {
    var p := front + "." + ext;
    assert forall k :: |front| <= k < |p| ==> p[k] == ("." + ext)[k - |front|];
  }

  /** The extension is the dot-free text after the final dot. */
  lemma ExtensionIsTail(p: string, ext: string)
    requires Extension(p).Success?
    requires |ext| < |p| && p[|p| - |ext| - 1..] == "." + ext && '.' !in ext
    ensures Extension(p) == Success(ext)
  {
    TailAfterLastIsUnique(p, '.', Extension(p).value, ext);
  }

  /** Two texts that each follow the final `c` of `p` are the same text. */
  lemma TailAfterLastIsUnique(p: string, c: char, x: string, y: string)
    requires |x| < |p| && p[|p| - |x| - 1..] == [c] + x && c !in x
    requires |y| < |p| && p[|p| - |y| - 1..] == [c] + y && c !in y
    ensures x == y
  {
    assert p[|p| - |x| - 1] == c && p[|p| - |y| - 1] == c;
    assert forall k :: |p| - |x| <= k < |p| ==> p[k] == x[k - (|p| - |x|)];
    assert forall k :: |p| - |y| <= k < |p| ==> p[k] == y[k - (|p| - |y|)];
    assert |x| == |y|;
    assert x == p[|p| - |x|..] == y;
  }

  /** A file name made only of leading dots and a stem has no extension: IndexError. */
  lemma ExtensionMissing(dir: string, name: string)
    requires '/' !in name && '.' !in name
    ensures Extension(dir + "/" + name) == Failure(IndexError)
    ensures Extension(dir + "/." + name) == Failure(IndexError)
  {
    BasenameOfJoin(dir, name);
    BasenameOfJoin(dir, "." + name);
    assert dir + "/." + name == dir + "/" + ("." + name);
    assert !HasExtension("." + name) by {
      forall i, j | 0 <= i < j < |"." + name| && ("." + name)[i] != '.'
        ensures ("." + name)[j] != '.'
      {
        assert ("." + name)[j] == name[j - 1];
      }
    }
  }

  /** `os.path.join(a, b)` on POSIX: an absolute `b` replaces `a`; otherwise a '/' is
      inserted unless `a` is empty or already ends with one. */
  function JoinPath(a: string, b: string): (p: string)
    ensures |b| > 0 && b[0] != '/' && |a| > 0 && a[|a| - 1] != '/' ==> p == a + "/" + b
  {
    if |b| > 0 && b[0] == '/' then b
    else if |a| == 0 || a[|a| - 1] == '/' then a + b
    else a + "/" + b
  }

  /** Joining one directory with two relative names gives equal paths only for equal names. */
  lemma JoinPathInjective(dir: string, x: string, y: string)
    requires |x| > 0 && x[0] != '/' && |y| > 0 && y[0] != '/'
    requires JoinPath(dir, x) == JoinPath(dir, y)
    ensures x == y
  {
    var front := JoinPath(dir, x)[..|JoinPath(dir, x)| - |x|];
    assert JoinPath(dir, x) == front + x;
    assert JoinPath(dir, y) == front + y;
    assert x == (front + x)[|front|..];
  }

  /** The text after the last `c` of `p` (all of `p` when there is none) is determined by
      being a `c`-free suffix that starts the text or follows a `c`. */
  lemma TailAfterLast(p: string, c: char, x: string, y: string)
    requires Strings.IsTailAfter(p, c, x) && Strings.IsTailAfter(p, c, y)
    ensures x == y
  {
    assert forall k :: |p| - |x| <= k < |p| ==> p[k] == x[k - (|p| - |x|)];
    assert forall k :: |p| - |y| <= k < |p| ==> p[k] == y[k - (|p| - |y|)];
    assert |x| == |y|;
  }

  /** `s.split('/')[-1]`, the last part of a split on '/', is `os.path.basename(s)`. */
  lemma LastSplitPartIsBasename(s: string)
    ensures Strings.LastPart(s, '/') == Basename(s)
  {
    Strings.LastPartIsTail(s, '/');
    var base := Basename(s);
    assert Strings.IsTailAfter(s, '/', base);
    TailAfterLast(s, '/', Strings.LastPart(s, '/'), base);
  }
}

=== FILE: strings.dfy ===
/** Python's `str.split(sep)` with an explicit separator, and the search it is built on. */
module Strings {
  import opened Wrappers

  /** `pat` occurs in `s` starting at index `i`. */
  predicate OccursAt(s: string, pat: string, i: nat) {
    i + |pat| <= |s| && s[i..i + |pat|] == pat
  }

  ghost predicate Contains(s: string, pat: string) {
    exists i: nat :: OccursAt(s, pat, i)
  }

  /** The first occurrence of `pat` in `s` at or after `from`; that it is the leftmost
      one is `FindFromLeftmost`. */
  function FindFrom(s: string, pat: string, from: nat): (r: Option<nat>)
    requires from <= |s|
    ensures r.Some? ==> from <= r.value && OccursAt(s, pat, r.value)
    decreases |s| - from
  {
    if from + |pat| > |s| then None
    else if s[from..from + |pat|] == pat then Some(from)
    else FindFrom(s, pat, from + 1)
  }

  /** No occurrence lies between `from` and the one found, and none at all when none is found. */
  lemma {:induction false} FindFromLeftmost(s: string, pat: string, from: nat)
    requires from <= |s|
    ensures FindFrom(s, pat, from).Some? ==>
              forall j: nat :: from <= j < FindFrom(s, pat, from).value ==> !OccursAt(s, pat, j)
    ensures FindFrom(s, pat, from).None? ==> forall j: nat :: from <= j ==> !OccursAt(s, pat, j)
    decreases |s| - from
  {
    if from + |pat| <= |s| && s[from..from + |pat|] != pat {
      FindFromLeftmost(s, pat, from + 1);
    }
  }

  /** The first occurrence of `pat` in `s`, as `str.find` (None where it returns -1). */
  function Find(s: string, pat: string): (r: Option<nat>)
    ensures r.Some? ==> OccursAt(s, pat, r.value)
  {
    FindFrom(s, pat, 0)
  }

  /** `Find` returns the leftmost occurrence, and nothing exactly when there is none. */
  lemma FindLeftmost(s: string, pat: string)
    ensures Find(s, pat).Some? ==> forall j: nat :: j < Find(s, pat).value ==> !OccursAt(s, pat, j)
    ensures Find(s, pat).None? <==> !Contains(s, pat)
  {
    FindFromLeftmost(s, pat, 0);
  }

  /** Inverse of splitting: the parts glued back with the separator between them. */
  function Join(parts: seq<string>, sep: string): string
    decreases |parts|
  {
    if |parts| == 0 then ""
    else if |parts| == 1 then parts[0]
    else parts[0] + sep + Join(parts[1..], sep)
  }

  /** A prefix that ends before the leftmost occurrence holds no occurrence itself. */
  lemma PrefixBeforeFirst(s: string, sep: string, i: nat)
    requires |sep| > 0 && i <= |s|
    requires forall j: nat :: j < i ==> !OccursAt(s, sep, j)
    ensures !Contains(s[..i], sep)
  {
    forall j: nat
      ensures !OccursAt(s[..i], sep, j)
    {
      if j + |sep| <= i {
        assert !OccursAt(s, sep, j);
        assert s[..i][j..j + |sep|] == s[j..j + |sep|];
      }
    }
  }

  /** `s.split(sep)`: cut at every leftmost, non-overlapping occurrence of `sep`.
      Python raises ValueError for an empty separator; every caller here passes a literal
      one. What the parts are is stated by the lemmas below. */
  function Split(s: string, sep: string): (parts: seq<string>)
    requires |sep| > 0
    ensures |parts| >= 1
    decreases |s|
  {
    match Find(s, sep)
    case None => [s]
    case Some(i) => [s[..i]] + Split(s[i + |sep|..], sep)
  }

  /** A text without the separator splits into itself alone. */
  lemma SplitWhole(s: string, sep: string)
    requires |sep| > 0 && !Contains(s, sep)
    ensures Split(s, sep) == [s]
  {
    FindLeftmost(s, sep);
  }

  /** One step of the split: the part before the leftmost occurrence, then the split of the rest. */
  lemma SplitAtFirst(s: string, sep: string, i: nat)
    requires |sep| > 0 && Find(s, sep) == Some(i)
    ensures i + |sep| <= |s|
    ensures Split(s, sep) == [s[..i]] + Split(s[i + |sep|..], sep)
  {
  }

  /** Splitting loses nothing: joining the parts with the separator gives the text back. */
  lemma {:induction false} SplitJoin(s: string, sep: string)
    requires |sep| > 0
    ensures Join(Split(s, sep), sep) == s
    decreases |s|
  {
    match Find(s, sep)
    case None =>
      assert Split(s, sep) == [s];
    case Some(i) =>
      SplitAtFirst(s, sep, i);
      var rest := Split(s[i + |sep|..], sep);
      SplitJoin(s[i + |sep|..], sep);
      var parts := [s[..i]] + rest;
      assert parts[1..] == rest;
      assert s == s[..i] + sep + s[i + |sep|..];
  }

  /** The text is cut at all exactly when the separator occurs in it. */
  lemma SplitSingle(s: string, sep: string)
    requires |sep| > 0
    ensures |Split(s, sep)| == 1 <==> !Contains(s, sep)
  {
    FindLeftmost(s, sep);
    match Find(s, sep)
    case None =>
      SplitWhole(s, sep);
    case Some(i) =>
      SplitAtFirst(s, sep, i);
  }

  /** No part of a split holds the separator: every occurrence was cut out. */
  lemma {:induction false} SplitPartsLackSeparator(s: string, sep: string)
    requires |sep| > 0
    ensures var parts := Split(s, sep); forall k :: 0 <= k < |parts| ==> !Contains(parts[k], sep)
    decreases |s|
  {
    match Find(s, sep)
    case None =>
      FindLeftmost(s, sep);
      SplitWhole(s, sep);
    case Some(i) =>
      SplitAtFirst(s, sep, i);
      FindLeftmost(s, sep);
      PrefixBeforeFirst(s, sep, i);
      SplitPartsLackSeparator(s[i + |sep|..], sep);
  }

  /** The first part of a split is the text before the leftmost separator, or all of it. */
  lemma FirstPart(s: string, sep: string)
    requires |sep| > 0
    ensures var p := Split(s, sep)[0];
            && |p| <= |s| && s[..|p|] == p && !Contains(p, sep)
            && (|p| == |s| || OccursAt(s, sep, |p|))
            && (forall j: nat :: j < |p| ==> !OccursAt(s, sep, j))
  {
    match Find(s, sep)
    case None =>
      FindLeftmost(s, sep);
      SplitWhole(s, sep);
    case Some(i) =>
      SplitAtFirst(s, sep, i);
      FindLeftmost(s, sep);
      PrefixBeforeFirst(s, sep, i);
  }

  /** A one-character pattern occurs where that character stands. */
  lemma OccursChar(s: string, c: char, i: nat)
    requires OccursAt(s, [c], i)
    ensures i < |s| && s[i] == c
  {
    assert s[i..i + 1][0] == s[i];
  }

  /** When a single character does not occur, splitting on it returns the text whole. */
  lemma SplitWithoutSeparator(s: string, c: char)
    requires c !in s
    ensures Split(s, [c]) == [s]
  {
    forall j: nat | OccursAt(s, [c], j)
      ensures false
    {
      OccursChar(s, c, j);
    }
    SplitWhole(s, [c]);
  }

  /** A one-character separator that never occurs does not appear in the text. */
  lemma CharAbsent(t: string, c: char)
    requires !Contains(t, [c])
    ensures c !in t
  {
    forall j | 0 <= j < |t|
      ensures t[j] != c
    {
      assert !OccursAt(t, [c], j);
      assert t[j..j + 1] == [t[j]];
    }
  }

  /** `x` is the text after the last `c` of `s` (all of `s` when there is none): a suffix
      free of `c`, preceded by `c` unless it is the whole text. */
  predicate IsTailAfter(s: string, c: char, x: string) {
    && |x| <= |s|
    && s[|s| - |x|..] == x
    && c !in x
    && (|x| < |s| ==> s[|s| - |x| - 1] == c)
  }

  /** The text after the last `c` of a suffix that follows a `c` is that of the whole text. */
  lemma TailExtends(s: string, i: nat, c: char, x: string)
    requires i < |s| && s[i] == c && IsTailAfter(s[i + 1..], c, x)
    ensures IsTailAfter(s, c, x)
  {
    assert s[|s| - |x|..] == s[i + 1..][|s[i + 1..]| - |x|..];
    if |x| == |s| - i - 1 {
      assert s[|s| - |x| - 1] == s[i];
    } else {
      assert s[|s| - |x| - 1] == s[i + 1..][|s[i + 1..]| - |x| - 1];
    }
  }

  /** `s.split(c)[-1]`: the last part of a split on one character. */
  function LastPart(s: string, c: char): string {
    var parts := Split(s, [c]);
    parts[|parts| - 1]
  }

  /** The last part of a split on one character is the text after the last occurrence
      of that character. */
  lemma {:induction false} LastPartIsTail(s: string, c: char)
    ensures IsTailAfter(s, c, LastPart(s, c))
    decreases |s|
  {
    match Find(s, [c])
    case None =>
      FindLeftmost(s, [c]);
      SplitWhole(s, [c]);
      CharAbsent(s, c);
    case Some(i) =>
      SplitLastStep(s, c, i);
      LastPartIsTail(s[i + 1..], c);
      TailExtends(s, i, c, LastPart(s[i + 1..], c));
  }

  /** After the leftmost `c`, the last part of the split is the last part of the rest. */
  lemma SplitLastStep(s: string, c: char, i: nat)
    requires Find(s, [c]) == Some(i)
    ensures i < |s| && s[i] == c
    ensures LastPart(s, c) == LastPart(s[i + 1..], c)
  {
    OccursChar(s, c, i);
    SplitAtFirst(s, [c], i);
    assert i + |[c]| == i + 1;
    var parts, rest := Split(s, [c]), Split(s[i + 1..], [c]);
    assert parts == [s[..i]] + rest;
    LastOfPrepend(parts, s[..i], rest);
  }

  lemma LastOfPrepend(parts: seq<string>, x: string, rest: seq<string>)
    requires parts == [x] + rest && |rest| > 0
    ensures parts[|parts| - 1] == rest[|rest| - 1]
  {
  }

  /** An occurrence in a suffix is an occurrence in the whole text, shifted. */
  lemma OccursInSuffix(s: string, k: nat, pat: string, j: nat)
    requires k <= |s| && OccursAt(s[k..], pat, j)
    ensures OccursAt(s, pat, k + j)
  {
    assert s[k + j..k + j + |pat|] == s[k..][j..j + |pat|];
  }

  /** An occurrence past `k` is an occurrence in the suffix from `k`, shifted. */
  lemma OccursFromSuffix(s: string, k: nat, pat: string, j: nat)
    requires k <= |s| && OccursAt(s, pat, k + j)
    ensures OccursAt(s[k..], pat, j)
  {
    assert s[k + j..k + j + |pat|] == s[k..][j..j + |pat|];
  }
}

=== FILE: wrappers.dfy ===
/** Failure-carrying datatypes shared by every module of the model. */
module Wrappers {

  /** A value that may be absent: Python's `None` versus a present value. */
  datatype Option<+T> = None | Some(value: T)

  /** The outcome of a step that may raise instead of returning. */
  datatype Result<+R, +E> = Success(value: R) | Failure(error: E)
}

/** The Python exceptions the modelled scripts can raise on their own inputs. */
module Errors {

  datatype Raised =
    | IndexError      // a list or string subscript out of range
    | KeyError        // a subscript on a dict without that key
    | TypeError       // an operation applied to a value of the wrong type
    | AttributeError  // a method (`get`, `split`) looked up on a value that lacks it
    | ValueError      // `range()` called with a zero step
}
